=== FILE: README.md ===
# Ring maintenance of a small simulated DHT

The system simulates a distributed hash table whose nodes form a
doubly linked ring. Each node has an integer identifier, a `left` and a `right`
neighbour, and a local data store. The repository carries four variants of
the node class:

- `dht.py` and `node.py`: join (constructor check of a class-wide identifier
  registry, then `insert_node`/`find_position`), leave (`remove`), message
  forwarding (`forward`), placement of a value on the node closest to its key
  and on both neighbours (`store_data`, `find_responsible_node`), and, in
  `node.py`, data look-up (`forward_data_request`, `has_data`, `deliver_data`);
- `dht_v1.py`: the same, plus a duplicate check in `store_data` and a
  replication hand-off in `remove` that re-stores the leaving node's entries on
  its neighbours;
- `dht_v2.py`: a variant without a registry in which requests travel right
  hop by hop until a node decides it is concerned: `is_responsible_for` on a
  circular distance modulo 100, `should_insert`/`insert_new_node`,
  `transfer_message`, `retrieve_data` and `remove_node`.

The model is an arena. The ring is a `map<int, Node>` keyed by identifier,
each record holds its neighbours' identifiers and its store, and pointer
rewiring is a map update. The circular shape is stated by a witness
sequence that lists the identifiers in `right` order (`Arena.IsCycle`). The
modules follow the program's structure:

- `Arena`: the ring, splice and bypass, `display_ring`, `has_data` and
  `deliver_data`;
- `Routing`: the hop-by-hop loops shared by `dht.py`, `node.py` and
  `dht_v1.py`;
- `Membership`: the registry, join and leave;
- `Replication`: `store_data` of all three variants and the hand-off of
  `dht_v1.py`, both as written and corrected;
- `Circular`: everything specific to `dht_v2.py`.

Loops that the source runs until they come back to the start carry a fuel of
`|r|`, which a lemma shows is exactly one full turn on a well-formed ring. The
recursions of `dht_v2.py` have no such stop in the source, so they also carry
fuel `|r|`, and a walk that finds nothing within one turn is reported as not
found. For these walks the model proves that one turn is enough whenever an
answer exists, and names the inputs on which the source would walk forever.

## Model

| member | source | states |
|---|---|---|
| Arena.HasData | dht_v1.py:219-220 | true iff some entry of the store carries the key |
| Arena.DeliverData | dht_v1.py:222-227 | a value is returned iff the store holds the key, and it is the value of the first entry carrying the key |
| Arena.DisplayRing | dht_v1.py:124-143 | `display_ring` lists at most one identifier per node, each a live one; Arena.DisplayRingListsCycle gives the full listing |
| Arena.DisplayRingListsCycle | dht_v1.py:124-143 | from any live node, the listing is a cycle witness of the whole ring (every node once, in `right` order) starting at the smallest identifier |
| Arena.DisplayRingSorted | node.py:78-97 | on a ring whose identifiers ascend with one wrap, the listing is exactly that ascending order |
| Arena.RingClosure | dht.py:114-122 | walking `right` from any live node returns to it after exactly n steps and meets n distinct nodes on the way, so the `while current != self` loops stop |
| Arena.Splice | dht_v1.py:61-65 | the pointer writes of `insert_node` keep every reference live and add exactly the newcomer; Arena.SpliceLinks states the four writes and Arena.SpliceInCycle the resulting cycle |
| Arena.SpliceInCycle | dht_v1.py:61-65 | linking a new node after the j-th node of a cycle yields the cycle with the newcomer inserted right after it |
| Arena.BypassInCycle | dht_v1.py:102-103 | linking the neighbours of the j-th node to each other and dropping it yields the cycle without that node |
| Arena.SpliceLinks | dht_v2.py:148-151 | the four pointer writes of an insertion: the newcomer points back to the accepting node and on to its old right neighbour, that neighbour points back to the newcomer, the accepting node points on to it, and nothing else changes |
| Arena.SingleWrap | dht_v1.py:70-72 | along an ascending ring the only node whose right neighbour is not larger is the largest one, so the wrap test of `find_position` singles out exactly one node |
| Arena.Bypass | node.py:72-73 | unlinking keeps the ring linked, keeps every identifier and changes no store |
| Routing.Forward | dht_v1.py:150-158 | `forward` reports delivery only at the target, which is live and is not the origin; Routing.ForwardDelivers gives the converse and the hop count |
| Routing.ForwardDelivers | dht_v1.py:150-158 | a message reaches its target iff the target is live and not the origin, after as many hops as the target lies to the origin's right (fewer than n) |
| Routing.ScanCycle | node.py:104-112 | the forwarding loop succeeds iff some node other than the origin is a hit, and stops at the first hit in `right` order |
| Routing.ForwardDataRequest | node.py:155-163 | an answer comes from a live node other than the origin and is that node's first value for the key |
| Routing.ForwardDataRequestFinds | dht_v1.py:209-217 | a request is answered iff some node other than the origin holds the key; the answering node is the first such node to the origin's right |
| Routing.FindResponsible | dht.py:138-159 | the chosen node is live and no farther from the key than the starting node |
| Routing.FindResponsibleClosest | dht_v1.py:182-203 | the chosen node is at minimal absolute distance to the key among all nodes, and among equally close nodes it is the first one met from the start |
| Membership.Start | dht_v1.py:23-31 | construction fails iff the identifier is already registered; otherwise the registry grows by exactly that identifier and the node forms a ring of one with an empty store |
| Membership.Join | node.py:11-20 | a join fails iff the newcomer's identifier is registered; otherwise it adds the identifier to the registry and the ring, which stays linked |
| Membership.FindPosition | dht_v1.py:68-76 | `find_position` answers a live node whose gap encloses the newcomer, or the contact itself; Membership.FindPositionFirstGap says which one |
| Membership.FindPositionFirstGap | dht_v1.py:68-76 | the walk returns the first node, from the contact, whose gap to its right neighbour encloses the newcomer, or the contact itself when no gap does |
| Membership.LoneInsertIsSplice | dht_v1.py:55-59 | the lone-node branch of `insert_node` writes the same links as a splice after the lone node |
| Membership.InsertNode | dht_v1.py:53-66 | `insert_node` keeps every reference live and adds exactly the newcomer; Membership.InsertNodeSplices says where it lands |
| Membership.InsertNodeSplices | dht_v1.py:53-66 | insertion keeps a single cycle, with the newcomer right after the first gap node from the contact (or after the contact when no gap exists) |
| Membership.InsertAtUniqueGap | dht.py:51-74 | in an ascending ring there is exactly one gap for a new identifier, and insertion from any contact splices the newcomer there |
| Membership.InsertKeepsSorted | node.py:41-64 | insertion into an ascending ring keeps it ascending (one wrap) and adds one node |
| Membership.Remove | node.py:66-76 | the identifier leaves the registry and the ring; a lone node returns nothing, any other returns its right neighbour; no store changes |
| Membership.RemoveFromCycle | dht.py:76-86 | removing the j-th node closes the cycle around it and returns its successor; removing the only node empties the ring |
| Membership.RemoveKeepsSorted | node.py:66-76 | removal from an ascending ring keeps it ascending |
| Membership.JoinThenRemove | dht.py:51-86 | a join followed by the newcomer's removal restores the registry and every record of the ring |
| Replication.StoreDedup | dht_v1.py:163-180 | nothing changes when the caller holds the key; otherwise the responsible node and both its neighbours hold the key afterwards, and stores only grow |
| Replication.StoreDedupEffect | dht_v1.py:163-180 | node by node: one copy on the responsible node and one on each neighbour that lacked the key, nothing anywhere else, nothing at all when the caller holds the key |
| Replication.StoreAll | node.py:117-126 | `store_data` of these variants only appends: each store gains one copy of the entry per occurrence of the node among the responsible node and its two neighbours, so a repeated node gains several |
| Replication.StoreAllSpread | node.py:117-126 | in a ring of three or more, exactly one copy goes to the responsible node and to each neighbour, and no other store changes |
| Replication.StoreAllPair | dht.py:127-136 | in a ring of two, the responsible node gets one copy and the other node gets two |
| Replication.StoreAllLone | node.py:117-126 | a lone node gets three copies of the entry |
| Replication.ClassifyHeld | dht_v1.py:110-122 | for a key the node holds, it is central exactly when it is neither a left nor a right node, so one branch of the hand-off always applies |
| Replication.HandOffEntryAsWritten | dht_v1.py:86-100 | one step of the hand-off as written leaves the links unchanged and only appends to stores |
| Replication.TrappedStep | dht_v1.py:86-93 | on a trapped configuration one iteration as written finds the leaving node central, both re-stores land back on the leaving node, its store grows by two entries and the configuration stays trapped |
| Replication.HandOffLoopAsWritten | dht_v1.py:85-100 | the loop as written, over the live store, keeps links and only grows stores whenever it finishes; Replication.HandOffLoopDiverges shows it need not finish |
| Replication.HandOffLoopDiverges | dht_v1.py:85-100 | on a trapped configuration the hand-off loop as written never finishes, whatever the fuel |
| Replication.RemoveV1AsWritten | dht_v1.py:78-108 | `remove` as written, when it returns, takes exactly the node out of registry and ring; Replication.RemoveV1Diverges shows it need not return |
| Replication.RemoveV1Diverges | dht_v1.py:78-108 | on a trapped configuration `remove` as written never returns |
| Replication.SampleRemoveDiverges | dht_v1.py:78-108 | removing node 30 from the ring 10, 20, 30, 40, 50 with key 30 on nodes 20, 30 and 40 never returns |
| Replication.Receivers | dht_v1.py:86-100 | the nodes a corrected step copies onto are live and lack the key: for a central node those of the two nodes two steps away that lack it, otherwise the left neighbour when it lacks the key, failing that the right one |
| Replication.HandOffEntry | dht_v1.py:86-100 | the corrected step keeps links, adds exactly one copy of the entry to each receiver and changes no other store, only writes within two steps of the leaving node, and leaves the key on its left neighbour |
| Replication.HandOff | dht_v1.py:85-100 | the corrected hand-off over a snapshot of the store keeps links, changes no store more than two steps from the leaving node, and every entry it adds comes from the snapshot |
| Replication.HandOffKeeps | dht_v1.py:85-100 | after the corrected hand-off, every key the leaving node held is on its left neighbour |
| Replication.HandOffCentralSpreads | dht_v1.py:87-93 | for a central entry the corrected hand-off leaves the key on the two nodes at each side of the leaving node |
| Replication.RemoveV1 | dht_v1.py:78-108 | the corrected `remove` always returns; the node leaves registry and ring, no store loses an entry, stores more than two steps away are unchanged, every added entry is one the node held, and its keys are on its left neighbour |
| Replication.RemoveV1InCycle | dht_v1.py:102-108 | the corrected removal closes the cycle around the leaving node |
| Replication.SampleRemoveRestores | dht_v1.py:78-108 | on the sample ring the corrected removal of node 30 leaves key 30 on all four remaining nodes |
| Circular.CircDist | dht_v2.py:74 | the circular distance is the smaller of the direct distance and its complement to 100 |
| Circular.CircDistBounds | dht_v2.py:74-76 | for identifiers and keys in 0..99 the circular distance lies between 0 and 50 and is symmetric |
| Circular.IsResponsibleFor | dht_v2.py:70-92 | a key within the node and its right neighbour is judged against the right neighbour, otherwise one within its left neighbour and the node against the left neighbour, otherwise the wrap node judges against its right neighbour; the answer is true iff the node is strictly closer (a tie gives false); no answer exactly when none of the three tests applies |
| Circular.TieClaimedByNeither | dht_v2.py:72-85 | a key strictly between two adjacent nodes of an ascending ring and equally far from both is claimed by neither |
| Circular.AboveMaxUnclaimed | dht_v2.py:70-92 | in an ascending ring of two or more nodes, a key above the largest identifier and no nearer to it than to the smallest is claimed by no node |
| Circular.BelowMinUnclaimed | dht_v2.py:70-92 | in an ascending ring of two or more nodes, a key below the smallest identifier and no farther from it than from the largest is claimed by no node |
| Circular.LoneNeverResponsible | dht_v2.py:70-92 | a lone node answers false for its own identifier and nothing for any other key |
| Circular.ShouldInsertIsGap | dht_v2.py:140-143 | for a new identifier, the test of `should_insert` is the gap test of `find_position` |
| Circular.SeekCycle | dht_v2.py:114-124 | a right-ward request succeeds iff some node, the entry node included, matches, and stops at the first match |
| Circular.TransferMessage | dht_v2.py:114-124 | `transfer_message` stops only at the receiver, which is live; Circular.TransferDelivers gives the converse and the hop count |
| Circular.TransferDelivers | dht_v2.py:114-124 | a message arrives iff its receiver is live, after as many hops as it lies to the sender's right; zero hops iff sent to itself |
| Circular.RetrieveData | dht_v2.py:55-68 | a value `retrieve_data` returns is the first matching value of some live node's store; Circular.RetrieveDataFinds says which node |
| Circular.RetrieveDataFinds | dht_v2.py:55-68 | a value is found iff some node (the entry node included) holds the key, and it comes from the first holder in `right` order |
| Circular.StoreV2 | dht_v2.py:39-53 | a store happens iff the walk meets a responsible node, and then that node and both neighbours each receive the entry without duplicate check |
| Circular.StoreV2Places | dht_v2.py:39-53 | an entry is placed iff some node is responsible for its key, by the first such node from the entry node |
| Circular.StoreV2LoneNever | dht_v2.py:39-53 | a ring of one node never stores anything |
| Circular.StoreV2BelowMinNever | dht_v2.py:39-53 | from any entry node, such a key below the smallest identifier is never stored |
| Circular.StoreV2AboveMaxNever | dht_v2.py:39-53 | from any entry node, such a key above the largest identifier is never stored |
| Circular.StoreV2SharedClaim | dht_v2.py:39-53 | in the ring 1, 50, 58, 60 both 58 and 60 claim key 55, so an entry entering at 58 is stored around 58 and one entering at 60 around 60, and node 1 receives a copy only in the second case |
| Circular.StoreV2TieNever | dht_v2.py:70-92 | in the ring 10, 30, 50, key 20 (midway between 10 and 30) is claimed by no node and never stored |
| Circular.ReceiveJoinRequest | dht_v2.py:126-152 | the request circles iff no node is alone or has a gap enclosing the newcomer; otherwise the first such node accepts, and a new identifier is spliced in right after it (exactly one node added) while a live one is reported as a duplicate at that node |
| Circular.LiveIdNoGap | dht_v2.py:140-143 | in an ascending ring of two or more nodes, no node's strict `should_insert` test accepts an identifier already live |
| Circular.JoinV2DuplicateCircles | dht_v2.py:126-143 | a join request for a live identifier in an ascending ring of two or more nodes is accepted by no node and circles |
| Circular.JoinV2LoneDuplicate | dht_v2.py:131-132 | a lone node asked to insert its own identifier accepts at once, building a second node with that identifier |
| Circular.JoinV2MatchesInsert | dht_v2.py:126-143 | in an ascending ring the join of this variant inserts exactly where `insert_node` of the other variants does |
| Circular.JoinV2KeepsSorted | dht_v2.py:145-152 | a join of a new identifier into an ascending ring succeeds and keeps it ascending |
| Circular.RemoveNodeV2 | dht_v2.py:154-168 | a served removal concerns a live node and, unless that node is alone, takes exactly it out of the ring |
| Circular.RemoveNodeV2InCycle | dht_v2.py:154-168 | from any entry node, removing a member of a ring of two or more closes the cycle around it |
| Circular.RemoveNodeV2Absent | dht_v2.py:154-168 | a removal request for an absent identifier is never served |

## Left out

- The simulation framework (simpy processes, timeouts, `run`, `listen`, random delays) and every `print`: they do not affect the ring or the stores.
- `draw_ring` (matplotlib) and the `display_ring` of `dht_v2.py`: they only draw or print. `display_ring` of the other variants is modelled as the list it prints.
- The simulation driver functions at the bottom of each file (`add_node`, `remove_node`, `send_message`, `store_data`, `get_data`, `main`, `add_nodes`, `send_sample_messages`) and `simulation.py`: they drive the simulation at random.
- `send`, `deliver`, `request_data`, `send_join_message`, `received_join_message`, `receive_message`, `send_message`: thin wrappers that print or hand over to the modelled walks. A message's content is not modelled; only its receiver matters.
- Python object identity: nodes are identified by their identifiers, which the registry keeps unique in the three variants that have one.
- Circular.ReceiveJoinRequest: when the accepting node would insert an identifier that is already live, the model stops with `Duplicate` at that node. `dht_v2.py` has no registry, so `insert_new_node` would build a second node object with the same identifier, which an arena keyed by identifier cannot hold. This happens for a lone contact asked to insert its own identifier (Circular.JoinV2LoneDuplicate); in an ascending ring of two or more nodes a live identifier is accepted by nobody (Circular.JoinV2DuplicateCircles).
- Circular.RemoveNodeV2: a lone target stays in the ring, because its pointer updates are no-ops in the source. `remove_node` returns nothing either way.
- The walks of `dht_v2.py` have no stop in the source. The model stops each one after one full turn and reports "not found" (`Circles` for a join). `Circular.SeekCycle` shows that one turn is enough whenever an answer exists. Where none exists, `receive_join_request` calls itself directly and ends in Python's `RecursionError`. `remove_node` nests generators through `yield from` and keeps deepening. `store_data` and `retrieve_data` schedule a new simulation process per hop, and `transfer_message` loops, so all three run for as long as the simulation does. The inputs with no answer that the model names: an absent receiver or removal target, a key no node holds for `retrieve_data`, a live identifier asking to join, a ring of one node for `store_data` (Circular.StoreV2LoneNever), a key below the smallest identifier that is no farther from it than from the largest (Circular.StoreV2BelowMinNever; the driver's key 7 is such a key whenever the smallest identifier is above 7 and no farther from 7 than the largest identifier is), and its mirror, a key above the largest identifier that is no nearer to it than to the smallest (Circular.StoreV2AboveMaxNever). A key equally far from two adjacent nodes is claimed by neither of them (Circular.TieClaimedByNeither), but the wrap node may still claim it; in the ring 10, 30, 50 the key 20 is claimed by nobody (Circular.StoreV2TieNever). Conversely, more than one node can claim the same key (in the ring 1, 50, 58, 60 both 58 and 60 claim 55, Circular.StoreV2SharedClaim), so where `store_data` places an entry depends on the entry node: it is the first claiming node met from there (Circular.StoreV2Places).
- Replication.HandOffLoopAsWritten and Replication.RemoveV1AsWritten: they carry an iteration fuel, and None stands for "not finished within the fuel". The divergence lemmas show that None holds for every fuel on the trapped inputs.
- Replication.HandOffEntryAsWritten: states only that links are unchanged and stores grow. The node-by-node effect of the re-routed writes is stated by Replication.StoreDedupEffect for each `store_data` call.
- Circular.IsResponsibleFor: a missing answer (`None`) and `False` are kept apart, as in the source; `store_data` reads both as false.

## Findings

| source | as written | input that shows it | evidently intended | confidence | as-written member | corrected member |
|---|---|---|---|---|---|---|
| dht_v1.py:85-100 | The hand-off calls `store_data` on a neighbour. `store_data` (dht_v1.py:163-180) re-routes the entry to the node closest to the key, which can be the leaving node itself. Its store then grows while `for data in self.data_store` iterates over it, so `remove` never returns. | Ring 10, 20, 30, 40, 50 with the entry (30, "v") on nodes 20, 30 and 40; remove node 30. Node 30 is central, node 10 lacks the key, and every `store_data` call on node 10 or node 50 appends another copy to node 30, so each iteration adds entries for the loop to visit. | Copy each entry directly onto the chosen neighbour when it lacks the key, iterate over a snapshot of the store, and return. | high (not executed) | Replication.RemoveV1AsWritten, Replication.TrappedStep, Replication.SampleRemoveDiverges | Replication.RemoveV1, Replication.HandOffKeeps |

A trapped configuration (`Replication.Trapped`) is a ring of four or more nodes in which the leaving node is strictly nearest to the key and holds only entries for it, both of its neighbours hold the key, and the two nodes two steps away do not. The sample ring above is one.

=== FILE: arena.dfy ===
/**
 The ring as an arena: every live node is a record in a map keyed by its
 identifier, holding the identifiers of its left and right neighbours and its
 local store. Pointer rewiring becomes a map update; the circular topology is
 stated by a witness sequence listing the identifiers in `right` order.
 */
module Arena {

  datatype Option<T> = None | Some(value: T)

  /** A stored key/value pair (`Donnees` / `Data` in the source). */
  datatype Entry = Entry(key: int, value: string)

  /** One node of the ring: its neighbours' identifiers and its local store. */
  datatype Node = Node(left: int, right: int, store: seq<Entry>)

  type Ring = map<int, Node>

  /**
   A trigger device with no meaning of its own: it always holds. `Linked`
   quantifies over it so that the solver produces a node's neighbour facts only
   where a walk or a proof mentions `Visited(id)` (see `Follow`), instead of for
   every map lookup it sees.
   */
  ghost predicate Visited(id: int) {
    true
  }

  /** Every neighbour reference names a live node. */
  ghost predicate Linked(r: Ring) {
    forall id {:trigger Visited(id)} | id in r && Visited(id) :: r[id].left in r && r[id].right in r
  }

  /** Both neighbours of a live node are live. */
  lemma Follow(r: Ring, id: int)
    requires Linked(r) && id in r
    ensures r[id].left in r && r[id].right in r
  {
    assert Visited(id);
  }

  /** The identifier after position `i` when `c` is read as a cycle. */
  function Succ(c: seq<int>, i: int): int
    requires 0 <= i < |c|
  {
    if i + 1 < |c| then c[i + 1] else c[0]
  }

  /** The identifier before position `i` when `c` is read as a cycle. */
  function Pred(c: seq<int>, i: int): int
    requires 0 <= i < |c|
  {
    if i > 0 then c[i - 1] else c[|c| - 1]
  }

  ghost predicate Distinct(c: seq<int>) {
    forall i, j | 0 <= i < j < |c| :: c[i] != c[j]
  }

  ghost predicate Sorted(c: seq<int>) {
    forall i, j | 0 <= i < j < |c| :: c[i] < c[j]
  }

  /** Membership of a live identifier in a witness, kept behind a name so that
      the coverage clause below is only instantiated where a proof asks for it. */
  ghost predicate Covers(c: seq<int>, id: int) {
    id in c
  }

  /** Position `i` of `c` is a live node whose `right` and `left` are the next and previous positions.
      Kept behind a name so that one position's facts do not unfold into its neighbours'. */
  ghost predicate HopOk(r: Ring, c: seq<int>, i: int)
    requires 0 <= i < |c|
  {
    c[i] in r && r[c[i]].right == Succ(c, i) && r[c[i]].left == Pred(c, i)
  }

  /** `c` lists every live node once, and `right`/`left` step forward/backward along it. */
  ghost predicate CycleShape(r: Ring, c: seq<int>) {
    && |c| > 0
    && c[0] in r
    && Distinct(c)
    && (forall id {:trigger Covers(c, id)} | id in r :: Covers(c, id))
    && (forall i | 0 <= i < |c| :: c[i] in r)
    && (forall i | 0 <= i < |c| :: HopOk(r, c, i))
  }

  /** The ring's well-formedness: a single cycle through all live nodes, witnessed by `c`. */
  ghost predicate IsCycle(r: Ring, c: seq<int>) {
    CycleShape(r, c) && Linked(r)
  }

  /** The position of a live node in a witness. */
  lemma PositionOf(r: Ring, c: seq<int>, id: int) returns (i: int)
    requires CycleShape(r, c) && id in r
    ensures 0 <= i < |c| && c[i] == id
  {
    assert Covers(c, id);
    i :| 0 <= i < |c| && c[i] == id;
  }

  /** The node at position `i` of a witness and its two neighbours along it. */
  lemma Hop(r: Ring, c: seq<int>, i: int)
    requires CycleShape(r, c) && 0 <= i < |c|
    ensures c[i] in r && r[c[i]].right == Succ(c, i) && r[c[i]].left == Pred(c, i)
    ensures Succ(c, i) in r && Pred(c, i) in r
  {
    assert HopOk(r, c, i);
    assert HopOk(r, c, if i + 1 < |c| then i + 1 else 0);
    assert HopOk(r, c, if i > 0 then i - 1 else |c| - 1);
  }

  /** A witness lists live nodes only. */
  lemma AbsentFromCycle(r: Ring, c: seq<int>, x: int)
    requires CycleShape(r, c) && x !in r
    ensures x !in c
  {
    forall i | 0 <= i < |c| ensures c[i] != x {
      Hop(r, c, i);
    }
  }

  lemma ShapeIsCycle(r: Ring, c: seq<int>)
    requires CycleShape(r, c)
    ensures IsCycle(r, c)
  {
    forall id {:trigger Visited(id)} | id in r && Visited(id) ensures r[id].left in r && r[id].right in r {
      var i := PositionOf(r, c, id);
      Hop(r, c, i);
    }
  }

  lemma {:induction false} DistinctCard(c: seq<int>)
    requires Distinct(c)
    ensures |set x | x in c| == |c|
  {
    if c != [] {
      var t := c[1..];
      assert Distinct(t) by {
        forall i, j | 0 <= i < j < |t| ensures t[i] != t[j] {
          assert t[i] == c[i + 1] && t[j] == c[j + 1];
        }
      }
      DistinctCard(t);
      assert (set x | x in c) == {c[0]} + (set x | x in t) by {
        forall x | x in c ensures x == c[0] || x in t {
          var i :| 0 <= i < |c| && c[i] == x;
          if i > 0 { assert t[i - 1] == x; }
        }
      }
      assert c[0] !in (set x | x in t) by {
        forall i | 0 <= i < |t| ensures t[i] != c[0] {
          assert t[i] == c[i + 1];
        }
      }
    }
  }

  /** The witness of a cycle has exactly one position per live node. */
  lemma CycleSize(r: Ring, c: seq<int>)
    requires IsCycle(r, c)
    ensures |r| == |c|
  {
    DistinctCard(c);
    forall id | id in r ensures id in c {
      var i := PositionOf(r, c, id);
    }
    forall i | 0 <= i < |c| ensures c[i] in r {
      Hop(r, c, i);
    }
    SameKeys(r, c);
  }

  lemma SameKeys(r: Ring, c: seq<int>)
    requires forall id | id in r :: id in c
    requires forall i | 0 <= i < |c| :: c[i] in r
    ensures |r| == |set x | x in c|
  {
    var keys := set x | x in c;
    forall x | x in keys ensures x in r {
      var i :| 0 <= i < |c| && c[i] == x;
    }
    forall x | x in r ensures x in keys {
      assert x in c;
    }
    assert keys == r.Keys;
  }

  /** Where position `m` of the rotation of a length-`n` sequence at `i` comes from. */
  function Shift(n: int, i: int, m: int): int {
    if m < n - i then i + m else m - (n - i)
  }

  lemma RotateIndex(c: seq<int>, i: int, m: int)
    requires 0 <= i < |c| && 0 <= m < |c|
    ensures 0 <= Shift(|c|, i, m) < |c|
    ensures (c[i..] + c[..i])[m] == c[Shift(|c|, i, m)]
  {
  }

  lemma RotateStep(r: Ring, c: seq<int>, i: int, m: int)
    requires IsCycle(r, c) && 0 <= i < |c| && 0 <= m < |c|
    ensures var d := c[i..] + c[..i];
      |d| == |c| && d[m] in r && r[d[m]].right == Succ(d, m) && r[d[m]].left == Pred(d, m)
  {
    var n := |c|;
    var d := c[i..] + c[..i];
    RotateIndex(c, i, m);
    var im := Shift(n, i, m);
    Hop(r, c, im);
    if m + 1 < n {
      RotateIndex(c, i, m + 1);
    } else {
      RotateIndex(c, i, 0);
    }
    if m > 0 {
      RotateIndex(c, i, m - 1);
    } else {
      RotateIndex(c, i, n - 1);
    }
  }

  /** Reading a cycle from any other position is again a witness of the same ring. */
  lemma RotateCycle(r: Ring, c: seq<int>, i: int)
    requires IsCycle(r, c) && 0 <= i < |c|
    ensures IsCycle(r, c[i..] + c[..i])
  {
    var n := |c|;
    var d := c[i..] + c[..i];
    assert |d| == n;
    forall a, b | 0 <= a < b < n ensures d[a] != d[b] {
      RotateIndex(c, i, a);
      RotateIndex(c, i, b);
    }
    forall id | id in r ensures Covers(d, id) {
      var j := PositionOf(r, c, id);
      var m := if j >= i then j - i else j + (n - i);
      RotateIndex(c, i, m);
    }
    forall m | 0 <= m < n ensures HopOk(r, d, m) {
      RotateStep(r, c, i, m);
    }
    assert CycleShape(r, d);
  }

  /** Rotates a witness so that it starts at the live node `s`. */
  lemma CycleFrom(r: Ring, c: seq<int>, s: int) returns (d: seq<int>)
    requires IsCycle(r, c) && s in r
    ensures IsCycle(r, d) && |d| == |c| && d[0] == s
  {
    var i := PositionOf(r, c, s);
    RotateCycle(r, c, i);
    d := c[i..] + c[..i];
  }

  /** Follows `right` k times from `s`. */
  function Walk(r: Ring, s: int, k: nat): (t: int)
    requires Linked(r) && s in r
    ensures t in r
  {
    if k == 0 then s
    else
      var t := Walk(r, s, k - 1);
      Follow(r, t);
      r[t].right
  }

  lemma {:induction false} WalkAlongCycle(r: Ring, c: seq<int>, k: nat)
    requires IsCycle(r, c) && k <= |c|
    ensures Walk(r, c[0], k) == if k < |c| then c[k] else c[0]
  {
    if k > 0 {
      WalkAlongCycle(r, c, k - 1);
      Hop(r, c, k - 1);
    }
  }

  /** Ring closure: from any live node, n steps to the right come back to it, visiting n distinct nodes. */
  lemma RingClosure(r: Ring, c: seq<int>, s: int)
    requires IsCycle(r, c) && s in r
    ensures Walk(r, s, |r|) == s
    ensures forall k, m | 0 <= k < m < |r| :: Walk(r, s, k) != Walk(r, s, m)
  {
    var d := CycleFrom(r, c, s);
    CycleSize(r, d);
    WalkAlongCycle(r, d, |d|);
    forall k, m | 0 <= k < m < |r| ensures Walk(r, s, k) != Walk(r, s, m) {
      WalkAlongCycle(r, d, k);
      WalkAlongCycle(r, d, m);
    }
  }

  /** The identifiers met walking `right` from `cur` until the walk is back at `s` (at most `fuel` of them). */
  function EnumerateFrom(r: Ring, s: int, cur: int, fuel: nat): (ids: seq<int>)
    requires Linked(r) && cur in r
    ensures |ids| <= fuel
    ensures forall i | 0 <= i < |ids| :: ids[i] in r
    decreases fuel
  {
    if fuel == 0 then []
    else
      Follow(r, cur);
      var next := r[cur].right;
      [cur] + (if next == s then [] else EnumerateFrom(r, s, next, fuel - 1))
  }

  /** The second loop of `display_ring`: every node once, in `right` order, starting at `s`. */
  function Enumerate(r: Ring, s: int): (ids: seq<int>)
    requires Linked(r) && s in r
    ensures |ids| <= |r|
  {
    EnumerateFrom(r, s, s, |r|)
  }

  lemma {:induction false} EnumerateAlongCycle(r: Ring, c: seq<int>, k: int, fuel: nat)
    requires IsCycle(r, c) && 0 <= k < |c| && fuel >= |c| - k
    ensures EnumerateFrom(r, c[0], c[k], fuel) == c[k..]
    decreases |c| - k
  {
    Hop(r, c, k);
    if k + 1 < |c| {
      assert c[k + 1] != c[0];
      EnumerateAlongCycle(r, c, k + 1, fuel - 1);
      assert c[k..] == [c[k]] + c[k + 1..];
    } else {
      assert c[k..] == [c[k]];
    }
  }

  /** Enumerating from the first node of a witness yields exactly that witness. */
  lemma EnumerateIsCycle(r: Ring, c: seq<int>)
    requires IsCycle(r, c)
    ensures Enumerate(r, c[0]) == c
  {
    CycleSize(r, c);
    EnumerateAlongCycle(r, c, 0, |r|);
  }

  /** The first loop of `display_ring`: the smallest identifier met walking `right` from `s`. */
  function MinFrom(r: Ring, s: int, cur: int, best: int, fuel: nat): (m: int)
    requires Linked(r) && cur in r && best in r
    ensures m in r && m <= best
    decreases fuel
  {
    if fuel == 0 then best
    else
      var best' := if cur < best then cur else best;
      Follow(r, cur);
      var next := r[cur].right;
      if next == s then best' else MinFrom(r, s, next, best', fuel - 1)
  }

  function MinNode(r: Ring, s: int): (m: int)
    requires Linked(r) && s in r
    ensures m in r && m <= s
  {
    MinFrom(r, s, s, s, |r|)
  }

  lemma {:induction false} MinAlongCycle(r: Ring, c: seq<int>, k: int, best: int, fuel: nat)
    requires IsCycle(r, c) && 0 <= k < |c| && fuel >= |c| - k && best in r
    requires forall j | 0 <= j < k :: best <= c[j]
    ensures forall j | 0 <= j < |c| :: MinFrom(r, c[0], c[k], best, fuel) <= c[j]
    decreases |c| - k
  {
    Hop(r, c, k);
    var best' := if c[k] < best then c[k] else best;
    var m := MinFrom(r, c[0], c[k], best, fuel);
    if k + 1 < |c| {
      assert c[k + 1] != c[0];
      assert m == MinFrom(r, c[0], c[k + 1], best', fuel - 1);
      MinAlongCycle(r, c, k + 1, best', fuel - 1);
    } else {
      assert m == best';
    }
  }

  /** `display_ring`: the enumeration starting from the smallest identifier. */
  function DisplayRing(r: Ring, s: int): (ids: seq<int>)
    requires Linked(r) && s in r
    ensures |ids| <= |r| && forall i | 0 <= i < |ids| :: ids[i] in r
  {
    Enumerate(r, MinNode(r, s))
  }

  /** From any live node, `display_ring` lists every node exactly once in `right` order, minimum first. */
  lemma DisplayRingListsCycle(r: Ring, c: seq<int>, s: int)
    requires IsCycle(r, c) && s in r
    ensures IsCycle(r, DisplayRing(r, s))
    ensures forall id | id in r :: DisplayRing(r, s)[0] <= id
  {
    var d := CycleFrom(r, c, s);
    MinAlongCycle(r, d, 0, s, |r|) by { CycleSize(r, d); }
    var m := MinNode(r, s);
    var e := CycleFrom(r, d, m);
    EnumerateIsCycle(r, e);
    forall id | id in r ensures m <= id {
      var j := PositionOf(r, d, id);
    }
  }

  /** Ascending with exactly one wrap: on a sorted witness `display_ring` returns the witness itself. */
  lemma DisplayRingSorted(r: Ring, c: seq<int>, s: int)
    requires IsCycle(r, c) && Sorted(c) && s in r
    ensures DisplayRing(r, s) == c
  {
    DisplayRingListsCycle(r, c, s);
    var m := MinNode(r, s);
    var j := PositionOf(r, c, m);
    assert m <= c[0];
    assert j == 0;
    EnumerateIsCycle(r, c);
  }

  /** Along a sorted witness, the only node whose right neighbour is not larger is the maximum. */
  lemma SingleWrap(r: Ring, c: seq<int>, id: int)
    requires IsCycle(r, c) && Sorted(c) && id in r
    ensures r[id].right <= id <==> id == c[|c| - 1]
  {
    var i := PositionOf(r, c, id);
    Hop(r, c, i);
  }

  /** Whether some entry of the store carries `key` (`has_data`). */
  function HasData(store: seq<Entry>, key: int): (b: bool)
    ensures b <==> exists i | 0 <= i < |store| :: store[i].key == key
  {
    if store == [] then false
    else store[0].key == key || HasData(store[1..], key)
  }

  /** The value of the first entry carrying `key` (`deliver_data`), or None when there is none. */
  function DeliverData(store: seq<Entry>, key: int): (v: Option<string>)
    ensures v.Some? <==> HasData(store, key)
    ensures v.Some? ==> exists i | 0 <= i < |store| ::
      && store[i] == Entry(key, v.value)
      && forall j | 0 <= j < i :: store[j].key != key
  {
    if store == [] then None
    else if store[0].key == key then Some(store[0].value)
    else
      var v := DeliverData(store[1..], key);
      if v.Some? then
        var i :| 0 <= i < |store[1..]| && store[1..][i] == Entry(key, v.value)
                 && forall j | 0 <= j < i :: store[1..][j].key != key;
        assert store[i + 1] == Entry(key, v.value);
        v
      else v
  }

  /** `b` has the live nodes of `a`, each with the same `left` and `right` pointers. */
  ghost predicate SameLinks(a: Ring, b: Ring) {
    a.Keys == b.Keys && forall x | x in a :: b[x].left == a[x].left && b[x].right == a[x].right
  }

  lemma SameLinksTrans(a: Ring, b: Ring, d: Ring)
    requires SameLinks(a, b) && SameLinks(b, d)
    ensures SameLinks(a, d)
  {
    forall x | x in a ensures d[x].left == a[x].left && d[x].right == a[x].right {
      assert b[x].left == a[x].left && b[x].right == a[x].right;
    }
  }

  /** Changing stores only keeps every reference live. */
  lemma SameLinksLinked(a: Ring, b: Ring)
    requires SameLinks(a, b) && Linked(a)
    ensures Linked(b)
  {
    forall x {:trigger Visited(x)} | x in b && Visited(x) ensures b[x].left in b && b[x].right in b {
      Follow(a, x);
    }
  }

  lemma SameLinksShape(a: Ring, b: Ring, c: seq<int>)
    requires SameLinks(a, b) && CycleShape(a, c)
    ensures CycleShape(b, c)
  {
    forall i | 0 <= i < |c| ensures HopOk(b, c, i) {
      Hop(a, c, i);
    }
    forall id | id in b ensures Covers(c, id) {
      assert id in a;
    }
  }

  /** Changing stores only keeps every witness a witness. */
  lemma SameLinksCycle(a: Ring, b: Ring, c: seq<int>)
    requires SameLinks(a, b) && IsCycle(a, c)
    ensures IsCycle(b, c)
  {
    SameLinksLinked(a, b);
    SameLinksShape(a, b, c);
  }

  /** Appends one entry to one node's store (`data_store.append`). */
  function Append(r: Ring, id: int, e: Entry): (r': Ring)
    requires id in r
    ensures SameLinks(r, r') && r'[id].store == r[id].store + [e]
    ensures forall x | x in r && x != id :: r'[x] == r[x]
  {
    r[id := r[id].(store := r[id].store + [e])]
  }

  /** A store holds a key after an append iff it held it before or the appended entry carries it. */
  lemma HasDataAppend(store: seq<Entry>, e: Entry, key: int)
    ensures HasData(store + [e], key) <==> HasData(store, key) || e.key == key
  {
    var t := store + [e];
    if HasData(store, key) {
      var i :| 0 <= i < |store| && store[i].key == key;
      assert t[i].key == key;
    }
    if e.key == key {
      assert t[|store|].key == key;
    }
    if HasData(t, key) {
      var i :| 0 <= i < |t| && t[i].key == key;
      if i < |store| { assert store[i].key == key; }
    }
  }

  /** Overwriting or adding one record whose neighbours are live keeps every reference live. */
  lemma LinkedUpdate(r: Ring, id: int, nd: Node)
    requires Linked(r)
    requires nd.left in r || nd.left == id
    requires nd.right in r || nd.right == id
    ensures Linked(r[id := nd])
  {
    var r' := r[id := nd];
    forall x {:trigger Visited(x)} | x in r' && Visited(x) ensures r'[x].left in r' && r'[x].right in r' {
      if x != id {
        Follow(r, x);
        assert r'[x] == r[x];
      }
    }
  }

  /** Splices `nid` in right after `p`: the four pointer writes of `insert_node` in source order. */
  function Splice(r: Ring, p: int, nid: int): (r': Ring)
    requires Linked(r) && p in r && nid !in r
    ensures Linked(r') && r'.Keys == r.Keys + {nid}
  {
    Follow(r, p);
    var q := r[p].right;
    Follow(r, q);
    var r1 := r[nid := Node(p, q, [])];
    LinkedUpdate(r, nid, Node(p, q, []));
    var r2 := r1[q := r1[q].(left := nid)];
    LinkedUpdate(r1, q, r1[q].(left := nid));
    LinkedUpdate(r2, p, r2[p].(right := nid));
    r2[p := r2[p].(right := nid)]
  }

  /** Links the neighbours of `x` to each other (`left.right = right; right.left = left`); `x` itself is untouched. */
  function Bypass(r: Ring, x: int): (r': Ring)
    requires Linked(r) && x in r
    ensures Linked(r') && r'.Keys == r.Keys
    ensures forall z | z in r :: r'[z].store == r[z].store
  {
    Follow(r, x);
    var l := r[x].left;
    var q := r[x].right;
    Follow(r, l);
    Follow(r, q);
    var r1 := r[l := r[l].(right := q)];
    LinkedUpdate(r, l, r[l].(right := q));
    LinkedUpdate(r1, q, r1[q].(left := l));
    r1[q := r1[q].(left := l)]
  }

  /**
   The four pointer writes of an insertion after `p`: the newcomer points back to
   `p` and on to `p`'s old right neighbour, which now points back to the newcomer,
   and `p` points on to it. Every store and every other node is unchanged.
   */
  lemma SpliceLinks(r: Ring, p: int, nid: int)
    requires Linked(r) && p in r && nid !in r
    ensures var q := r[p].right; var r' := Splice(r, p, nid);
      && r'[nid] == Node(p, q, [])
      && r'[p].right == nid && r'[p].store == r[p].store
      && q in r && r'[q].left == nid && r'[q].store == r[q].store
      && (q != p ==> r'[p].left == r[p].left && r'[q].right == r[q].right)
      && forall z | z in r && z != p && z != q :: r'[z] == r[z]
  {
    Follow(r, p);
  }

  lemma SpliceLastHop(r: Ring, c: seq<int>, nid: int, m: int)
    requires IsCycle(r, c) && nid !in r && 0 <= m <= |c|
    ensures var d := c + [nid]; var r' := Splice(r, c[|c| - 1], nid);
      d[m] in r' && r'[d[m]].right == Succ(d, m) && r'[d[m]].left == Pred(d, m)
  {
    var n := |c|;
    var d := c + [nid];
    var p := c[n - 1];
    var q := c[0];
    var r' := Splice(r, p, nid);
    Hop(r, c, n - 1);
    assert r'[nid] == Node(p, q, []);
    if m == n {
      assert d[m] == nid;
    } else {
      Hop(r, c, m);
      assert d[m] == c[m];
      if n == 1 {
        assert r'[p] == r[p].(left := nid, right := nid);
      } else if m == n - 1 {
        assert r'[p] == r[p].(right := nid);
      } else if m == 0 {
        assert r'[q] == r[q].(left := nid);
        assert d[1] == c[1];
      } else {
        assert r'[c[m]] == r[c[m]];
        assert d[m + 1] == c[m + 1];
        assert d[m - 1] == c[m - 1];
      }
    }
  }

  lemma SpliceAtLast(r: Ring, c: seq<int>, nid: int)
    requires IsCycle(r, c) && nid !in r
    ensures IsCycle(Splice(r, c[|c| - 1], nid), c + [nid])
  {
    var n := |c|;
    var p := c[n - 1];
    var r' := Splice(r, p, nid);
    var d := c + [nid];
    forall a, b | 0 <= a < b < n + 1 ensures d[a] != d[b] {
      Hop(r, c, a);
    }
    forall id | id in r' ensures Covers(d, id) {
      if id == nid {
        assert d[n] == id;
      } else {
        var j := PositionOf(r, c, id);
        assert d[j] == id;
      }
    }
    forall m | 0 <= m < n + 1 ensures HopOk(r', d, m) {
      SpliceLastHop(r, c, nid, m);
    }
    assert CycleShape(r', d);
    ShapeIsCycle(r', d);
  }

  lemma SpliceOrder(c: seq<int>, j: int, nid: int)
    requires 0 <= j < |c| - 1
    ensures var e := c[j + 1..] + c[..j + 1] + [nid]; var k := |c| - j - 1;
      0 < k < |e| && e[k..] + e[..k] == c[..j + 1] + [nid] + c[j + 1..]
  {
    var e := c[j + 1..] + c[..j + 1] + [nid];
    var k := |c| - j - 1;
    assert e[k..] == c[..j + 1] + [nid];
    assert e[..k] == c[j + 1..];
  }

  /** Splicing after position `j` inserts exactly the new node, right after `c[j]`, and keeps the cyclic order of the rest. */
  lemma SpliceInCycle(r: Ring, c: seq<int>, j: int, nid: int)
    requires IsCycle(r, c) && 0 <= j < |c| && nid !in r
    ensures IsCycle(Splice(r, c[j], nid), c[..j + 1] + [nid] + c[j + 1..])
  {
    var n := |c|;
    if j + 1 == n {
      SpliceAtLast(r, c, nid);
      assert c[..j + 1] + [nid] + c[j + 1..] == c + [nid];
    } else {
      SpliceInside(r, c, j, nid);
    }
  }

  lemma SpliceInside(r: Ring, c: seq<int>, j: int, nid: int)
    requires IsCycle(r, c) && 0 <= j < |c| - 1 && nid !in r
    ensures IsCycle(Splice(r, c[j], nid), c[..j + 1] + [nid] + c[j + 1..])
  {
    var n := |c|;
    RotateCycle(r, c, j + 1);
    var c' := c[j + 1..] + c[..j + 1];
    assert c'[n - 1] == c[j];
    SpliceAtLast(r, c', nid);
    var r' := Splice(r, c[j], nid);
    assert IsCycle(r', c' + [nid]);
    SpliceOrder(c, j, nid);
    RotateCycle(r', c' + [nid], n - j - 1);
  }

  lemma BypassLast(r: Ring, c: seq<int>)
    requires IsCycle(r, c) && |c| >= 2
    ensures IsCycle(Bypass(r, c[|c| - 1]) - {c[|c| - 1]}, c[..|c| - 1])
  {
    var n := |c|;
    var x := c[n - 1];
    var r' := Bypass(r, x) - {x};
    var d := c[..n - 1];
    Hop(r, c, n - 1);
    Hop(r, c, n - 2);
    Hop(r, c, 0);
    forall a, b | 0 <= a < b < n - 1 ensures d[a] != d[b] {
    }
    forall id | id in r' ensures Covers(d, id) {
      var j := PositionOf(r, c, id);
      assert d[j] == id;
    }
    forall m | 0 <= m < n - 1 ensures HopOk(r', d, m) {
      Hop(r, c, m);
      assert c[m] != x;
    }
    assert CycleShape(r', d);
    ShapeIsCycle(r', d);
  }

  lemma BypassOrder(c: seq<int>, j: int)
    requires 0 < j < |c| - 1
    ensures var e := (c[j + 1..] + c[..j + 1])[..|c| - 1]; var k := |c| - 1 - j;
      0 < k < |e| && e[k..] + e[..k] == c[..j] + c[j + 1..]
  {
    var e := (c[j + 1..] + c[..j + 1])[..|c| - 1];
    assert e == c[j + 1..] + c[..j];
    var k := |c| - 1 - j;
    assert e[k..] == c[..j];
    assert e[..k] == c[j + 1..];
  }

  /** Bypassing `c[j]` and dropping it leaves the other nodes in their cyclic order. */
  lemma BypassInCycle(r: Ring, c: seq<int>, j: int)
    requires IsCycle(r, c) && 0 <= j < |c| && |c| >= 2
    ensures IsCycle(Bypass(r, c[j]) - {c[j]}, c[..j] + c[j + 1..])
  {
    var n := |c|;
    if j + 1 == n {
      BypassLast(r, c);
      assert c[..j] + c[j + 1..] == c[..n - 1];
    } else {
      RotateCycle(r, c, j + 1);
      var c' := c[j + 1..] + c[..j + 1];
      assert c'[n - 1] == c[j];
      BypassLast(r, c');
      if j == 0 {
        assert c'[..n - 1] == c[..j] + c[j + 1..];
      } else {
        BypassOrder(c, j);
        RotateCycle(Bypass(r, c[j]) - {c[j]}, c'[..n - 1], n - 1 - j);
      }
    }
  }
}

=== FILE: circular.dfy ===
/**
 The `dht_v2.py` variant. Requests are passed along `right` starting at the
 contacted node itself, and each node decides locally whether it is the one to
 act: the addressee of a message, a holder of a key, the node responsible for a
 key by circular distance in an identifier space of 100, or the node after which
 a newcomer belongs. The source recurses without any bound; every walk here
 carries fuel equal to the ring size, and NotFound stands for the request that
 would circle for ever.
 */
module Circular {
  import opened Arena
  import opened Routing
  import opened Membership
  import opened Replication

  /** Size of the identifier space the circular distance wraps around. */
  const Space := 100

  /** The circular distance of `is_responsible_for`: the direct distance or its complement to the space size, whichever is smaller. */
  function CircDist(id: int, key: int): (d: int)
    ensures d <= Dist(id, key) && d <= Space - Dist(id, key)
    ensures d == Dist(id, key) || d == Space - Dist(id, key)
  {
    var a := Dist(id, key);
    if a <= Space - a then a else Space - a
  }

  /** For identifiers and keys inside the space, the circular distance is at most half of it. */
  lemma CircDistBounds(id: int, key: int)
    requires 0 <= id < Space && 0 <= key < Space
    ensures 0 <= CircDist(id, key) <= Space / 2
    ensures CircDist(id, key) == CircDist(key, id)
  {
  }

  /**
   `is_responsible_for`: within `[self, right]` the node must be strictly closer
   than its right neighbour, within `[left, self]` strictly closer than its left
   neighbour, and on the wrap node strictly closer than its right neighbour.
   When no test applies the source falls off the end and returns None.
   */
  function IsResponsibleFor(r: Ring, x: int, key: int): (b: Option<bool>)
    requires Linked(r) && x in r
    ensures b.None? <==> !(x <= key <= r[x].right) && !(r[x].left <= key <= x) && x <= r[x].right
    // A key within `[x, right]` is judged against the right neighbour only.
    ensures x <= key <= r[x].right ==> b == Some(CircDist(x, key) < CircDist(r[x].right, key))
    // Otherwise a key within `[left, x]` is judged against the left neighbour only.
    ensures !(x <= key <= r[x].right) && r[x].left <= key <= x ==>
      b == Some(CircDist(x, key) < CircDist(r[x].left, key))
    // Otherwise the wrap node judges every key against its right neighbour.
    ensures !(x <= key <= r[x].right) && !(r[x].left <= key <= x) && x > r[x].right ==>
      b == Some(CircDist(x, key) < CircDist(r[x].right, key))
  {
    Follow(r, x);
    var l := r[x].left;
    var q := r[x].right;
    if x <= key <= q then Some(CircDist(x, key) < CircDist(q, key))
    else if l <= key <= x then Some(CircDist(x, key) < CircDist(l, key))
    else if x > q then Some(CircDist(x, key) < CircDist(q, key))
    else None
  }

  /** The truth value `store_data` reads: None counts as false. */
  predicate Responsible(r: Ring, x: int, key: int)
    requires Linked(r) && x in r
  {
    IsResponsibleFor(r, x, key) == Some(true)
  }

  /** A node alone in its ring is never responsible: its only bounding neighbour is itself, and no distance is below itself. */
  lemma LoneNeverResponsible(r: Ring, x: int, key: int)
    requires Linked(r) && x in r && r[x].left == x && r[x].right == x
    ensures IsResponsibleFor(r, x, key) == if key == x then Some(false) else None
  {
  }

  /**
   A key strictly between two adjacent nodes of an ascending ring, at equal
   circular distance from both, is claimed by neither: each of them compares
   the key against the other, and a tie is not "closer".
   */
  lemma TieClaimedByNeither(r: Ring, c: seq<int>, i: int, key: int)
    requires IsCycle(r, c) && Sorted(c) && 0 <= i < |c| - 1
    requires c[i] < key < c[i + 1] && CircDist(c[i], key) == CircDist(c[i + 1], key)
    ensures !Responsible(r, c[i], key) && !Responsible(r, c[i + 1], key)
  {
    Hop(r, c, i);
    Hop(r, c, i + 1);
  }

  /**
   A key below the smallest identifier of an ascending ring of two or more nodes
   that is circularly no farther from the smallest node than from the largest is
   claimed by nobody: no node's interval test holds for it except the wrap
   node's, and the wrap node compares it against the smallest node.
   */
  lemma BelowMinUnclaimed(r: Ring, c: seq<int>, key: int)
    requires IsCycle(r, c) && Sorted(c) && |c| >= 2
    requires key < c[0] && CircDist(c[0], key) <= CircDist(c[|c| - 1], key)
    ensures forall y | y in r :: !Responsible(r, y, key)
  {
    var n := |c|;
    forall y | y in r ensures !Responsible(r, y, key) {
      var j := PositionOf(r, c, y);
      Hop(r, c, j);
      if j == 0 {
        assert c[0] < c[n - 1];
      } else if j < n - 1 {
        assert c[0] <= c[j - 1] && c[j] < c[j + 1];
      } else {
        assert c[0] <= c[n - 2] && c[0] < c[n - 1];
      }
    }
  }

  /** The mirror case: a key above the largest identifier and no nearer to it than to the smallest is claimed by no node. */
  lemma AboveMaxUnclaimed(r: Ring, c: seq<int>, key: int)
    requires IsCycle(r, c) && Sorted(c) && |c| >= 2
    requires key > c[|c| - 1] && CircDist(c[|c| - 1], key) >= CircDist(c[0], key)
    ensures forall y | y in r :: !Responsible(r, y, key)
  {
    var n := |c|;
    forall y | y in r ensures !Responsible(r, y, key) {
      var j := PositionOf(r, c, y);
      Hop(r, c, j);
      if j == 0 {
        assert c[0] < c[n - 1];
      } else if j < n - 1 {
        assert c[j + 1] <= c[n - 1] && c[j] < c[j + 1];
      } else {
        assert c[0] < c[n - 1];
      }
    }
  }

  /** `should_insert`: strictly between the node and its right neighbour, or past the wrap. */
  predicate ShouldInsert(r: Ring, x: int, nid: int)
    requires x in r
  {
    var q := r[x].right;
    (x < nid < q) || (x > q && (nid > x || nid < q))
  }

  /** For an identifier not yet in the ring, `should_insert` is the gap test `find_position` of the other variants uses. */
  lemma ShouldInsertIsGap(r: Ring, x: int, nid: int)
    requires Linked(r) && x in r && nid !in r
    ensures ShouldInsert(r, x, nid) <==> NodeGap(r, x, nid)
  {
    Follow(r, x);
  }

  /** What a `dht_v2.py` request is looking for at each node it reaches. */
  datatype Probe =
    | Addressee(id: int)  // `transfer_message`, `remove_node`
    | Keeper(key: int)    // `retrieve_data`
    | Owner(key: int)     // `store_data`
    | Gap(nid: int)       // `receive_join_request`

  predicate Matches(r: Ring, p: Probe, x: int)
    requires Linked(r) && x in r
  {
    match p
    case Addressee(t) => x == t
    case Keeper(k) => HasData(r[x].store, k)
    case Owner(k) => Responsible(r, x, k)
    case Gap(nid) => r[x].right == x || ShouldInsert(r, x, nid)
  }

  /** The forwarding recursion: test the current node, otherwise pass to `right`, for at most `fuel` nodes. */
  function Seek(r: Ring, p: Probe, cur: int, hops: nat, fuel: nat): (o: Outcome)
    requires Linked(r) && cur in r
    ensures o.Found? ==> o.id in r && Matches(r, p, o.id) && hops <= o.hops < hops + fuel
    decreases fuel
  {
    if fuel == 0 then NotFound
    else if Matches(r, p, cur) then Found(cur, hops)
    else
      Follow(r, cur);
      Seek(r, p, r[cur].right, hops + 1, fuel - 1)
  }

  /** A request entering the ring at `start`, with one visit per live node. */
  function SeekRing(r: Ring, p: Probe, start: int): (o: Outcome)
    requires Linked(r) && start in r
    ensures o.Found? ==> o.id in r && Matches(r, p, o.id) && o.hops < |r|
  {
    Seek(r, p, start, 0, |r|)
  }

  /** `c[h]` is the first node of the witness that matches. */
  ghost predicate FirstMatch(r: Ring, c: seq<int>, p: Probe, h: int)
    requires Linked(r) && forall i | 0 <= i < |c| :: c[i] in r
  {
    && 0 <= h < |c|
    && Matches(r, p, c[h])
    && forall m | 0 <= m < h :: !Matches(r, p, c[m])
  }

  lemma {:induction false} SeekAlongCycle(r: Ring, c: seq<int>, p: Probe, k: int)
    requires IsCycle(r, c) && 0 <= k < |c|
    requires forall m | 0 <= m < k :: !Matches(r, p, c[m])
    ensures var o := Seek(r, p, c[k], k, |c| - k);
      && (o.Found? <==> exists j | k <= j < |c| :: Matches(r, p, c[j]))
      && (o.Found? ==> FirstMatch(r, c, p, o.hops) && o.id == c[o.hops])
    decreases |c| - k
  {
    Hop(r, c, k);
    if !Matches(r, p, c[k]) {
      if k + 1 < |c| {
        SeekAlongCycle(r, c, p, k + 1);
        assert Seek(r, p, c[k], k, |c| - k) == Seek(r, p, c[k + 1], k + 1, |c| - k - 1);
        if exists j | k <= j < |c| :: Matches(r, p, c[j]) {
          var j :| k <= j < |c| && Matches(r, p, c[j]);
          assert j != k;
        }
      } else {
        assert Seek(r, p, c[k], k, |c| - k) == NotFound;
        if exists j | k <= j < |c| :: Matches(r, p, c[j]) {
          var j :| k <= j < |c| && Matches(r, p, c[j]);
          assert j == k;
        }
      }
    }
  }

  /**
   A request entering at `c[0]` succeeds iff some node of the ring, the entry
   node included, matches; it stops at the first match in `right` order, after
   as many hops as that node lies from the entry.
   */
  lemma SeekCycle(r: Ring, c: seq<int>, p: Probe)
    requires IsCycle(r, c)
    ensures var o := SeekRing(r, p, c[0]);
      && (o.Found? <==> exists j | 0 <= j < |c| :: Matches(r, p, c[j]))
      && (o.Found? ==> FirstMatch(r, c, p, o.hops) && o.id == c[o.hops])
  {
    CycleSize(r, c);
    SeekAlongCycle(r, c, p, 0);
  }

  /** `transfer_message`: walk right from the sender itself until the receiver's identifier. */
  function TransferMessage(r: Ring, sender: int, receiver: int): (o: Outcome)
    requires Linked(r) && sender in r
    ensures o.Found? ==> o.id == receiver && receiver in r
  {
    SeekRing(r, Addressee(receiver), sender)
  }

  /**
   A message arrives iff its receiver is live, after as many hops as the receiver
   lies to the right of the sender; a message to the sender itself arrives after
   zero hops. For an absent receiver the source walks for ever.
   */
  lemma TransferDelivers(r: Ring, c: seq<int>, receiver: int)
    requires IsCycle(r, c)
    ensures var o := TransferMessage(r, c[0], receiver);
      && (o.Found? <==> receiver in r)
      && (o.Found? ==> o.hops < |c| && c[o.hops] == receiver && (o.hops == 0 <==> receiver == c[0]))
  {
    SeekCycle(r, c, Addressee(receiver));
    if receiver in r {
      var j := PositionOf(r, c, receiver);
      assert Matches(r, Addressee(receiver), c[j]);
    }
  }

  /** `retrieve_data`: the content of the first local entry with the key, at the first node from `x` that has one. */
  function RetrieveData(r: Ring, x: int, key: int): (v: Option<string>)
    requires Linked(r) && x in r
    ensures v.Some? ==> exists y | y in r :: DeliverData(r[y].store, key) == v
  {
    match SeekRing(r, Keeper(key), x)
    case NotFound => None
    case Found(y, _) => DeliverData(r[y].store, key)
  }

  /**
   Unlike `forward_data_request`, the entry node's own store is searched first:
   a value is returned iff some node holds the key, and it is the first entry for
   the key at the first holder in `right` order from the entry node.
   */
  lemma RetrieveDataFinds(r: Ring, c: seq<int>, key: int)
    requires IsCycle(r, c)
    ensures var v := RetrieveData(r, c[0], key);
      && (v.Some? <==> exists j | 0 <= j < |c| :: HasData(r[c[j]].store, key))
      && (v.Some? ==> exists h :: FirstMatch(r, c, Keeper(key), h) && DeliverData(r[c[h]].store, key) == v)
  {
    SeekCycle(r, c, Keeper(key));
    var o := SeekRing(r, Keeper(key), c[0]);
    if exists j | 0 <= j < |c| :: HasData(r[c[j]].store, key) {
      var j :| 0 <= j < |c| && HasData(r[c[j]].store, key);
      assert Matches(r, Keeper(key), c[j]);
    }
    if o.Found? {
      assert FirstMatch(r, c, Keeper(key), o.hops);
    }
  }

  /**
   `store_data` of `dht_v2.py`: the request travels right to the first responsible
   node, which appends the entry to itself and to both neighbours without any
   duplicate check. None when no node is responsible.
   */
  function StoreV2(r: Ring, x: int, e: Entry): (o: Option<Ring>)
    requires Linked(r) && x in r
    ensures o.Some? <==> SeekRing(r, Owner(e.key), x).Found?
    ensures o.Some? ==> var p := SeekRing(r, Owner(e.key), x).id;
      && p in r && Responsible(r, p, e.key) && o.value == StoreAt(r, p, e)
  {
    match SeekRing(r, Owner(e.key), x)
    case NotFound => None
    case Found(p, _) => Some(StoreAt(r, p, e))
  }

  /** An entry is placed iff some node is responsible for its key, and then by the first such node from the entry node. */
  lemma StoreV2Places(r: Ring, c: seq<int>, e: Entry)
    requires IsCycle(r, c)
    ensures var o := StoreV2(r, c[0], e);
      && (o.Some? <==> exists j | 0 <= j < |c| :: Responsible(r, c[j], e.key))
      && (o.Some? ==> exists h :: FirstMatch(r, c, Owner(e.key), h) && SeekRing(r, Owner(e.key), c[0]).id == c[h])
  {
    SeekCycle(r, c, Owner(e.key));
    var o := SeekRing(r, Owner(e.key), c[0]);
    if exists j | 0 <= j < |c| :: Responsible(r, c[j], e.key) {
      var j :| 0 <= j < |c| && Responsible(r, c[j], e.key);
      assert Matches(r, Owner(e.key), c[j]);
    }
    if o.Found? {
      assert FirstMatch(r, c, Owner(e.key), o.hops);
    }
  }

  /** In a ring of one node nothing is ever stored: the request circles for ever. */
  lemma StoreV2LoneNever(r: Ring, c: seq<int>, e: Entry)
    requires IsCycle(r, c) && |c| == 1
    ensures StoreV2(r, c[0], e).None?
  {
    Hop(r, c, 0);
    LoneNeverResponsible(r, c[0], e.key);
    StoreV2Places(r, c, e);
  }

  /** Nodes 10, 30 and 50 in a ring, with empty stores. */
  function TieRing(): Ring {
    map[10 := Node(50, 30, []), 30 := Node(10, 50, []), 50 := Node(30, 10, [])]
  }

  lemma TieRingCycle(r: Ring)
    requires r == TieRing()
    ensures IsCycle(r, [10, 30, 50])
  {
    var c := [10, 30, 50];
    forall i | 0 <= i < |c| ensures HopOk(r, c, i) {
    }
    forall id | id in r ensures Covers(c, id) {
    }
    ShapeIsCycle(r, c);
  }

  lemma TieNobody(r: Ring)
    requires r == TieRing()
    ensures Linked(r) && !Responsible(r, 10, 20) && !Responsible(r, 30, 20) && !Responsible(r, 50, 20)
  {
    TieRingCycle(r);
  }

  /**
   Key 20 lies midway between nodes 10 and 30: each is as close as its bounding
   neighbour, so neither claims it, and neither does the wrap node 50. The key is
   never stored and the request circles for ever.
   */
  lemma StoreV2TieNever(r: Ring, value: string)
    requires r == TieRing()
    ensures StoreV2(r, 10, Entry(20, value)).None?
  {
    TieRingCycle(r);
    TieNobody(r);
    StoreV2Places(r, [10, 30, 50], Entry(20, value));
  }

  function ShareRing(): Ring {
    map[1 := Node(60, 50, []), 50 := Node(1, 58, []), 58 := Node(50, 60, []), 60 := Node(58, 1, [])]
  }

  lemma ShareRingCycle(r: Ring)
    requires r == ShareRing()
    ensures IsCycle(r, [1, 50, 58, 60])
  {
    var c := [1, 50, 58, 60];
    forall i | 0 <= i < |c| ensures HopOk(r, c, i) {
    }
    forall id | id in r ensures Covers(c, id) {
    }
    ShapeIsCycle(r, c);
  }

  /**
   Key 55 is claimed twice: node 58 is nearer to it than its left neighbour 50,
   and the wrap node 60 is nearer to it than its right neighbour 1. So where
   `store_data` places the entry depends on the node it enters at.
   */
  lemma StoreV2SharedClaim(r: Ring, value: string)
    requires r == ShareRing()
    ensures Linked(r) && Responsible(r, 58, 55) && Responsible(r, 60, 55)
    ensures StoreV2(r, 58, Entry(55, value)) == Some(StoreAt(r, 58, Entry(55, value)))
    ensures StoreV2(r, 60, Entry(55, value)) == Some(StoreAt(r, 60, Entry(55, value)))
    ensures StoreAt(r, 58, Entry(55, value))[1].store == []
    ensures StoreAt(r, 60, Entry(55, value))[1].store == [Entry(55, value)]
  {
    ShareRingCycle(r);
    assert |r| == 4 by {
      assert r.Keys == {1, 50, 58, 60};
    }
    assert IsResponsibleFor(r, 58, 55) == Some(true) by {
      assert CircDist(58, 55) == 3 && CircDist(50, 55) == 5;
    }
    assert IsResponsibleFor(r, 60, 55) == Some(true) by {
      assert CircDist(60, 55) == 5 && CircDist(1, 55) == 46;
    }
    assert SeekRing(r, Owner(55), 58) == Found(58, 0);
    assert SeekRing(r, Owner(55), 60) == Found(60, 0);
  }

  /**
   From any entry node of such a ring, a `store_data` for a key below the
   smallest identifier and no farther from it than from the largest never places the
   entry: the request circles for ever.
   */
  lemma StoreV2BelowMinNever(r: Ring, c: seq<int>, x: int, e: Entry)
    requires IsCycle(r, c) && Sorted(c) && |c| >= 2 && x in r
    requires e.key < c[0] && CircDist(c[0], e.key) <= CircDist(c[|c| - 1], e.key)
    ensures StoreV2(r, x, e).None?
  {
    BelowMinUnclaimed(r, c, e.key);
    var d := CycleFrom(r, c, x);
    StoreV2Places(r, d, e);
    forall j | 0 <= j < |d| ensures !Responsible(r, d[j], e.key) {
      Hop(r, d, j);
    }
  }

  /** From any entry node, `store_data` never stores a key above the largest identifier that is no nearer to it than to the smallest. */
  lemma StoreV2AboveMaxNever(r: Ring, c: seq<int>, x: int, e: Entry)
    requires IsCycle(r, c) && Sorted(c) && |c| >= 2 && x in r
    requires e.key > c[|c| - 1] && CircDist(c[|c| - 1], e.key) >= CircDist(c[0], e.key)
    ensures StoreV2(r, x, e).None?
  {
    AboveMaxUnclaimed(r, c, e.key);
    var d := CycleFrom(r, c, x);
    StoreV2Places(r, d, e);
    forall j | 0 <= j < |d| ensures !Responsible(r, d[j], e.key) {
      Hop(r, d, j);
    }
  }

  /**
   Where a join request of `dht_v2.py` ends: the newcomer spliced in; no node
   accepting it, so that `receive_join_request` calls itself until Python's
   recursion limit; or the accepting node `at` constructing a second node with
   an identifier already live, which an arena keyed by identifier cannot hold.
   */
  datatype JoinOutcome = Joined(ring: Ring) | Circles | Duplicate(at: int)

  /**
   `receive_join_request` followed by `insert_new_node`: the request travels right
   to the first node that is alone or after which `should_insert` places the
   newcomer, and that node splices it in on its right.
   */
  function ReceiveJoinRequest(r: Ring, s: int, nid: int): (o: JoinOutcome)
    requires Linked(r) && s in r
    ensures o.Circles? <==> SeekRing(r, Gap(nid), s).NotFound?
    ensures o.Duplicate? <==> nid in r && SeekRing(r, Gap(nid), s).Found?
    ensures o.Duplicate? ==> o.at == SeekRing(r, Gap(nid), s).id
    ensures o.Joined? ==> nid !in r && Linked(o.ring) && o.ring.Keys == r.Keys + {nid}
    ensures o.Joined? ==> SeekRing(r, Gap(nid), s).Found? && o.ring == Splice(r, SeekRing(r, Gap(nid), s).id, nid)
  {
    match SeekRing(r, Gap(nid), s)
    case NotFound => Circles
    case Found(p, _) => if nid in r then Duplicate(p) else Joined(Splice(r, p, nid))
  }

  /**
   In a sorted ring the join of `dht_v2.py` inserts exactly where `insert_node`
   of the other variants does, whichever node is contacted.
   */
  lemma JoinV2MatchesInsert(r: Ring, c: seq<int>, s: int, nid: int)
    requires IsCycle(r, c) && Sorted(c) && s in r && nid !in r
    ensures ReceiveJoinRequest(r, s, nid) == Joined(InsertNode(r, s, nid))
  {
    var e := CycleFrom(r, c, s);
    SeekCycle(r, e, Gap(nid));
    if |c| == 1 {
      Hop(r, e, 0);
      assert Matches(r, Gap(nid), e[0]);
      LoneInsertIsSplice(r, s, nid);
    } else {
      var g := InsertAtUniqueGap(r, c, s, nid);
      SortedNodeGap(r, c, g, nid);
      ShouldInsertIsGap(r, c[g], nid);
      Hop(r, c, g);
      var m := PositionOf(r, e, c[g]);
      assert Matches(r, Gap(nid), e[m]);
      var p := SeekRing(r, Gap(nid), s).id;
      var i := PositionOf(r, c, p);
      Hop(r, c, i);
      ShouldInsertIsGap(r, p, nid);
      SortedNodeGap(r, c, i, nid);
      AbsentFromCycle(r, c, nid);
      var g2 := SortedGapUnique(c, nid);
    }
  }

  /** In an ascending ring of two or more nodes, no node accepts an identifier that is already live. */
  lemma LiveIdNoGap(r: Ring, c: seq<int>, y: int, nid: int)
    requires IsCycle(r, c) && Sorted(c) && |c| >= 2 && y in r && nid in r
    ensures !Matches(r, Gap(nid), y)
  {
    var n := |c|;
    var j := PositionOf(r, c, y);
    var k := PositionOf(r, c, nid);
    Hop(r, c, j);
    if j < n - 1 {
      assert r[y].right == c[j + 1];
      if k <= j {
        assert c[k] <= c[j];
      } else {
        assert c[j + 1] <= c[k];
      }
    } else {
      assert r[y].right == c[0] && c[0] < c[n - 1];
      assert c[0] <= c[k] <= c[n - 1];
    }
  }

  /**
   A join request for an identifier already live in an ascending ring of two or
   more nodes is accepted by no node: `should_insert` compares strictly, so the
   request circles until the recursion limit.
   */
  lemma JoinV2DuplicateCircles(r: Ring, c: seq<int>, s: int, nid: int)
    requires IsCycle(r, c) && Sorted(c) && |c| >= 2 && s in r && nid in r
    ensures ReceiveJoinRequest(r, s, nid) == Circles
  {
    var d := CycleFrom(r, c, s);
    SeekCycle(r, d, Gap(nid));
    forall j | 0 <= j < |d| ensures !Matches(r, Gap(nid), d[j]) {
      Hop(r, d, j);
      LiveIdNoGap(r, c, d[j], nid);
    }
  }

  /** A lone node asked to insert its own identifier accepts at once, and the source builds a second node with that identifier. */
  lemma JoinV2LoneDuplicate(r: Ring, c: seq<int>, nid: int)
    requires IsCycle(r, c) && |c| == 1 && nid in r
    ensures ReceiveJoinRequest(r, c[0], nid) == Duplicate(c[0])
  {
    Hop(r, c, 0);
    var k := PositionOf(r, c, nid);
    SeekCycle(r, c, Gap(nid));
    assert Matches(r, Gap(nid), c[0]);
  }

  /** Hence joins of `dht_v2.py` keep a sorted ring sorted. */
  lemma JoinV2KeepsSorted(r: Ring, c: seq<int>, s: int, nid: int) returns (d: seq<int>)
    requires IsCycle(r, c) && Sorted(c) && s in r && nid !in r
    ensures ReceiveJoinRequest(r, s, nid).Joined?
    ensures IsCycle(ReceiveJoinRequest(r, s, nid).ring, d) && Sorted(d) && |d| == |c| + 1
  {
    JoinV2MatchesInsert(r, c, s, nid);
    d := InsertKeepsSorted(r, c, s, nid);
  }

  /**
   `remove_node`: the request travels right from `x` to the target, which links
   its neighbours to each other. A lone target's pointer updates change nothing.
   None when the target is not in the ring.
   */
  function RemoveNodeV2(r: Ring, x: int, target: int): (o: Option<Ring>)
    requires Linked(r) && x in r
    ensures o.Some? ==> target in r
    ensures o.Some? && (r[target].left != target || r[target].right != target) ==> o.value.Keys == r.Keys - {target}
  {
    match SeekRing(r, Addressee(target), x)
    case NotFound => None
    case Found(_, _) =>
      if r[target].left == target && r[target].right == target then Some(r)
      else
        Some(Bypass(r, target) - {target})
  }

  /** Removing the `j`-th node of a cycle of two or more, from any entry node, leaves the cycle without it. */
  lemma RemoveNodeV2InCycle(r: Ring, c: seq<int>, x: int, j: int)
    requires IsCycle(r, c) && x in r && 0 <= j < |c| && |c| >= 2
    ensures RemoveNodeV2(r, x, c[j]).Some?
    ensures IsCycle(RemoveNodeV2(r, x, c[j]).value, c[..j] + c[j + 1..])
  {
    var e := CycleFrom(r, c, x);
    TransferDelivers(r, e, c[j]);
    Hop(r, c, j);
    BypassInCycle(r, c, j);
  }

  /** A removal request for an identifier not in the ring is never served. */
  lemma RemoveNodeV2Absent(r: Ring, c: seq<int>, target: int)
    requires IsCycle(r, c) && target !in r
    ensures RemoveNodeV2(r, c[0], target).None?
  {
    TransferDelivers(r, c, target);
  }
}

=== FILE: membership.dfy ===
/**
 Joining and leaving the ring in `dht_v1.py`, `node.py` and `dht.py`: the
 class-wide identifier registry checked by the node constructor, the walk that
 finds where a newcomer goes, the splice that inserts it and the bypass that
 removes a node. The three variants carry the same code for all of these; the
 replication hand-off that `dht_v1.py` runs before unlinking is in module
 `Replication`.
 */
module Membership {
  import opened Arena

  /** Why an operation was refused: the constructor's `ValueError` on a taken identifier. */
  datatype Error = DuplicateIdentifier(id: int)

  datatype Result<T> = Ok(value: T) | Err(error: Error)

  /** The class-wide `existing_ids` set together with the nodes' records. */
  datatype State = State(registry: set<int>, ring: Ring)

  /** The same live identifiers, each with the same record: equality of rings, stated pointwise. */
  ghost predicate SameRecords(a: Ring, b: Ring) {
    a.Keys == b.Keys && forall x | x in a :: a[x] == b[x]
  }

  /** Every live node was registered when it was constructed. */
  predicate Registered(s: State) {
    s.ring.Keys <= s.registry
  }

  /** `Node.__init__` for the first node: claims the identifier and forms a ring of one. */
  function Start(reg: set<int>, id: int): (res: Result<State>)
    ensures res.Err? <==> id in reg
    ensures res.Ok? ==> Registered(res.value) && IsCycle(res.value.ring, [id])
    ensures res.Ok? ==> res.value.registry == reg + {id} && res.value.ring.Keys == {id} && res.value.ring[id].store == []
  {
    if id in reg then Err(DuplicateIdentifier(id))
    else
      var r := map[id := Node(id, id, [])];
      assert Covers([id], id);
      ShapeIsCycle(r, [id]);
      Ok(State(reg + {id}, r))
  }

  /**
   The test of `find_position`: `nid` belongs between `a` and its right
   neighbour `b`, either inside an ascending step or across the wrap from the
   largest identifier back to the smallest.
   */
  predicate Between(a: int, b: int, nid: int) {
    (a < nid <= b) || (b < a && (nid > a || nid < b))
  }

  /** The live node `id` and its right neighbour enclose `nid`. */
  predicate NodeGap(r: Ring, id: int, nid: int)
    requires id in r
  {
    Between(id, r[id].right, nid)
  }

  function FindPositionFrom(r: Ring, s: int, nid: int, cur: int, fuel: nat): (p: int)
    requires Linked(r) && s in r && cur in r
    ensures p in r && (p == s || NodeGap(r, p, nid))
    decreases fuel
  {
    if NodeGap(r, cur, nid) then cur
    else if r[cur].right == s || fuel == 0 then s
    else
      Follow(r, cur);
      FindPositionFrom(r, s, nid, r[cur].right, fuel - 1)
  }

  /** `find_position`: walk right from `s` to the first gap enclosing `nid`, giving up back at `s`. */
  function FindPosition(r: Ring, s: int, nid: int): (p: int)
    requires Linked(r) && s in r
    ensures p in r && (p == s || NodeGap(r, p, nid))
  {
    FindPositionFrom(r, s, nid, s, |r|)
  }

  /** `c[j]` is the first gap node of the witness at or after index `lo`. */
  ghost predicate FirstGap(r: Ring, c: seq<int>, nid: int, lo: int, j: int)
    requires forall i | 0 <= i < |c| :: c[i] in r
  {
    && 0 <= lo <= j < |c|
    && NodeGap(r, c[j], nid)
    && forall m | lo <= m < j :: !NodeGap(r, c[m], nid)
  }

  lemma {:induction false} FindPositionAlongCycle(r: Ring, c: seq<int>, nid: int, k: int, fuel: nat)
    returns (j: int)
    requires IsCycle(r, c) && 0 <= k < |c| && fuel >= |c| - k
    ensures var p := FindPositionFrom(r, c[0], nid, c[k], fuel);
      || (j == |c| && p == c[0] && forall m | k <= m < |c| :: !NodeGap(r, c[m], nid))
      || (FirstGap(r, c, nid, k, j) && p == c[j])
    decreases |c| - k
  {
    Hop(r, c, k);
    var p := FindPositionFrom(r, c[0], nid, c[k], fuel);
    if NodeGap(r, c[k], nid) {
      j := k;
    } else if k + 1 == |c| {
      assert r[c[k]].right == c[0];
      j := |c|;
    } else {
      assert r[c[k]].right == c[k + 1] != c[0];
      assert p == FindPositionFrom(r, c[0], nid, c[k + 1], fuel - 1);
      j := FindPositionAlongCycle(r, c, nid, k + 1, fuel - 1);
      if j < |c| {
        assert FirstGap(r, c, nid, k, j);
      }
    }
  }

  /**
   Seen from a witness starting at the contacted node, `find_position` returns
   the first node whose gap encloses `nid`, or the contacted node when no gap does.
   */
  lemma FindPositionFirstGap(r: Ring, c: seq<int>, nid: int) returns (j: int)
    requires IsCycle(r, c)
    ensures || (j == |c| && FindPosition(r, c[0], nid) == c[0] && forall m | 0 <= m < |c| :: !NodeGap(r, c[m], nid))
            || (FirstGap(r, c, nid, 0, j) && FindPosition(r, c[0], nid) == c[j])
  {
    CycleSize(r, c);
    j := FindPositionAlongCycle(r, c, nid, 0, |r|);
  }

  /**
   `insert_node` on the contacted node `s`: a lone node simply pairs up with the
   newcomer, otherwise the newcomer is spliced in after `find_position`'s answer.
   The newcomer arrives with an empty store.
   */
  function InsertNode(r: Ring, s: int, nid: int): (r': Ring)
    requires Linked(r) && s in r && nid !in r
    ensures Linked(r') && r'.Keys == r.Keys + {nid}
  {
    if r[s].right == s then
      Follow(r, s);
      var r0 := r[nid := Node(s, s, [])];
      LinkedUpdate(r, nid, Node(s, s, []));
      LinkedUpdate(r0, s, r[s].(left := nid, right := nid));
      r0[s := r[s].(left := nid, right := nid)]
    else
      Splice(r, FindPosition(r, s, nid), nid)
  }

  /** The lone branch of `insert_node` performs the same writes as a splice after the lone node. */
  lemma LoneInsertIsSplice(r: Ring, s: int, nid: int)
    requires Linked(r) && s in r && nid !in r && r[s].right == s
    ensures InsertNode(r, s, nid) == Splice(r, s, nid)
  {
    var a := InsertNode(r, s, nid);
    var b := Splice(r, s, nid);
    var ra := r[nid := Node(s, s, [])];
    var rb := ra[s := ra[s].(left := nid)];
    assert b == rb[s := rb[s].(right := nid)];
    assert a == ra[s := r[s].(left := nid, right := nid)];
    assert a.Keys == b.Keys;
    assert a[s] == b[s] && a[nid] == b[nid];
    forall x | x in a && x != s && x != nid ensures a[x] == b[x] {
      assert a[x] == r[x] && b[x] == r[x];
    }
  }

  /**
   Inserting into a ring keeps it a single cycle: the newcomer sits right after
   the first gap node met walking right from the contact, or right after the
   contact itself when there is no gap.
   */
  lemma InsertNodeSplices(r: Ring, c: seq<int>, nid: int) returns (j: int)
    requires IsCycle(r, c) && nid !in r
    ensures 0 <= j < |c|
    ensures InsertNode(r, c[0], nid) == Splice(r, c[j], nid)
    ensures IsCycle(InsertNode(r, c[0], nid), c[..j + 1] + [nid] + c[j + 1..])
    ensures FirstGap(r, c, nid, 0, j) || (j == 0 && forall m | 0 <= m < |c| :: !NodeGap(r, c[m], nid))
  {
    Hop(r, c, 0);
    if r[c[0]].right == c[0] {
      LoneInsertIsSplice(r, c[0], nid);
      CycleSize(r, c);
      if |c| > 1 {
        assert false;
      }
      j := FindPositionFirstGap(r, c, nid);
      if j == |c| {
        j := 0;
      }
    } else {
      j := FindPositionFirstGap(r, c, nid);
      if j == |c| {
        j := 0;
      }
    }
    SpliceInCycle(r, c, j, nid);
  }

  /** The gap test on a witness: `c[i]` and its successor in `c` enclose `nid`. */
  predicate GapIn(c: seq<int>, i: int, nid: int)
    requires 0 <= i < |c|
  {
    Between(c[i], Succ(c, i), nid)
  }

  /** In a sorted ring of two or more nodes the gap test reads as plain comparisons. */
  lemma SortedGap(c: seq<int>, i: int, nid: int)
    requires Sorted(c) && |c| >= 2 && 0 <= i < |c| && nid !in c
    ensures GapIn(c, i, nid) <==>
      if i < |c| - 1 then c[i] < nid < c[i + 1] else nid > c[|c| - 1] || nid < c[0]
  {
    if i < |c| - 1 {
      assert c[i + 1] in c;
    } else {
      assert c[0] < c[|c| - 1];
    }
  }

  lemma {:induction false} GapAfter(c: seq<int>, i: int, nid: int) returns (g: int)
    requires Sorted(c) && |c| >= 2 && nid !in c && 0 <= i < |c| - 1 && c[i] < nid < c[|c| - 1]
    ensures i <= g < |c| - 1 && c[g] < nid < c[g + 1]
    decreases |c| - i
  {
    assert c[i + 1] in c;
    if nid < c[i + 1] {
      g := i;
    } else {
      g := GapAfter(c, i + 1, nid);
    }
  }

  /** A sorted ring of two or more nodes has exactly one gap for each absent identifier. */
  lemma SortedGapUnique(c: seq<int>, nid: int) returns (g: int)
    requires Sorted(c) && |c| >= 2 && nid !in c
    ensures 0 <= g < |c| && GapIn(c, g, nid)
    ensures forall i | 0 <= i < |c| :: GapIn(c, i, nid) ==> i == g
  {
    var n := |c|;
    if nid > c[n - 1] || nid < c[0] {
      g := n - 1;
    } else {
      assert c[0] in c && c[n - 1] in c;
      g := GapAfter(c, 0, nid);
    }
    SortedGap(c, g, nid);
    forall i, k | 0 <= i < k < n ensures !(GapIn(c, i, nid) && GapIn(c, k, nid)) {
      SortedGap(c, i, nid);
      SortedGap(c, k, nid);
      assert c[i + 1] <= c[k];
    }
  }

  lemma SortedNodeGap(r: Ring, c: seq<int>, i: int, nid: int)
    requires IsCycle(r, c) && 0 <= i < |c|
    ensures c[i] in r && (NodeGap(r, c[i], nid) <==> GapIn(c, i, nid))
  {
    Hop(r, c, i);
  }

  /**
   Whichever node is contacted, inserting into a sorted ring of two or more
   nodes places the newcomer at the one gap that encloses it.
   */
  lemma InsertAtUniqueGap(r: Ring, c: seq<int>, s: int, nid: int) returns (g: int)
    requires IsCycle(r, c) && Sorted(c) && |c| >= 2 && s in r && nid !in r
    ensures 0 <= g < |c| && GapIn(c, g, nid) && InsertNode(r, s, nid) == Splice(r, c[g], nid)
  {
    AbsentFromCycle(r, c, nid);
    g := SortedGapUnique(c, nid);
    SortedNodeGap(r, c, g, nid);
    var e := CycleFrom(r, c, s);
    var j := InsertNodeSplices(r, e, nid);
    var p := PositionOf(r, c, e[j]);
    Hop(r, e, 0);
    Hop(r, e, j);
    if NodeGap(r, e[j], nid) {
      SortedNodeGap(r, c, p, nid);
    } else {
      Hop(r, e, 0);
      var q := PositionOf(r, c, c[g]);
      var m := PositionOf(r, e, c[g]);
      Hop(r, e, m);
      assert false;
    }
  }

  lemma SortedSplice(c: seq<int>, g: int, nid: int)
    requires Sorted(c) && 0 <= g < |c| - 1 && c[g] < nid < c[g + 1]
    ensures Sorted(c[..g + 1] + [nid] + c[g + 1..])
  {
    var d := c[..g + 1] + [nid] + c[g + 1..];
    forall a, b | 0 <= a < b < |d| ensures d[a] < d[b] {
      if b <= g {
      } else if b == g + 1 {
        assert d[a] <= c[g];
      } else if a == g + 1 {
        assert d[b] >= c[g + 1];
      } else if a > g + 1 {
        assert d[a] == c[a - 1] && d[b] == c[b - 1];
      } else {
        assert d[a] == c[a] && d[b] == c[b - 1];
      }
    }
  }

  lemma SortedAppend(c: seq<int>, nid: int)
    requires Sorted(c) && |c| > 0 && nid > c[|c| - 1]
    ensures Sorted(c + [nid])
  {
    var d := c + [nid];
    forall a, b | 0 <= a < b < |d| ensures d[a] < d[b] {
      if b == |c| && a < |c| - 1 {
        assert c[a] < c[|c| - 1];
      }
    }
  }

  lemma SortedPrepend(c: seq<int>, nid: int)
    requires Sorted(c) && |c| > 0 && nid < c[0]
    ensures Sorted([nid] + c)
  {
    var d := [nid] + c;
    forall a, b | 0 <= a < b < |d| ensures d[a] < d[b] {
      if a == 0 && b > 1 {
        assert c[0] < c[b - 1];
      }
    }
  }

  /**
   The ring stays sorted under insertion: listed from its smallest node, a
   sorted ring with a newcomer inserted through any contact is again sorted.
   */
  lemma InsertKeepsSorted(r: Ring, c: seq<int>, s: int, nid: int) returns (d: seq<int>)
    requires IsCycle(r, c) && Sorted(c) && s in r && nid !in r
    ensures IsCycle(InsertNode(r, s, nid), d) && Sorted(d) && |d| == |c| + 1
  {
    var n := |c|;
    var g: int;
    if n == 1 {
      assert Covers(c, s);
      Hop(r, c, 0);
      LoneInsertIsSplice(r, s, nid);
      g := 0;
    } else {
      g := InsertAtUniqueGap(r, c, s, nid);
    }
    var r' := InsertNode(r, s, nid);
    SpliceInCycle(r, c, g, nid);
    var e := c[..g + 1] + [nid] + c[g + 1..];
    AbsentFromCycle(r, c, nid);
    if g < n - 1 {
      if n >= 2 { SortedGap(c, g, nid); }
      SortedSplice(c, g, nid);
      d := e;
    } else {
      assert e == c + [nid];
      if n >= 2 { SortedGap(c, g, nid); }
      if nid > c[n - 1] {
        SortedAppend(c, nid);
        d := e;
      } else {
        RotateCycle(r', e, n);
        assert e[n..] + e[..n] == [nid] + c;
        SortedPrepend(c, nid);
        d := [nid] + c;
      }
    }
  }

  /** A join as the simulation drives it: construct the newcomer, then have `s` insert it. */
  function Join(st: State, s: int, nid: int): (res: Result<State>)
    requires Linked(st.ring) && s in st.ring && Registered(st)
    ensures res.Err? <==> nid in st.registry
    ensures res.Ok? ==> (Registered(res.value) && res.value.registry == st.registry + {nid}
                         && res.value.ring.Keys == st.ring.Keys + {nid} && Linked(res.value.ring))
  {
    if nid in st.registry then Err(DuplicateIdentifier(nid))
    else Ok(State(st.registry + {nid}, InsertNode(st.ring, s, nid)))
  }

  /** Outcome of `remove`: the new state and the returned node (`self.right`, or `None` for the last node). */
  datatype Removal = Removal(state: State, next: Option<int>)

  /**
   `remove` without the replication step: the last node just leaves, any other
   node links its neighbours together and hands back its right neighbour. The
   removed node's identifier leaves the registry.
   */
  function Remove(st: State, x: int): (out: Removal)
    requires Linked(st.ring) && x in st.ring && Registered(st)
    ensures Registered(out.state) && out.state.registry == st.registry - {x}
    ensures out.state.ring.Keys == st.ring.Keys - {x}
    ensures out.next.None? <==> st.ring[x].left == x && st.ring[x].right == x
    ensures out.next.Some? ==> out.next.value == st.ring[x].right
    ensures forall z | z in out.state.ring :: out.state.ring[z].store == st.ring[z].store
  {
    var r := st.ring;
    if r[x].left == x && r[x].right == x then Removal(State(st.registry - {x}, r - {x}), None)
    else Removal(State(st.registry - {x}, Bypass(r, x) - {x}), Some(r[x].right))
  }

  /**
   Removing the `j`-th node of a cycle leaves the cycle without it and returns
   its successor; removing the only node empties the ring.
   */
  lemma RemoveFromCycle(st: State, c: seq<int>, j: int)
    requires IsCycle(st.ring, c) && Registered(st) && 0 <= j < |c|
    ensures var out := Remove(st, c[j]);
      if |c| == 1 then out.state.ring == map[] && out.next == None
      else IsCycle(out.state.ring, c[..j] + c[j + 1..]) && out.next == Some(Succ(c, j))
  {
    Hop(r := st.ring, c := c, i := j);
    CycleSize(st.ring, c);
    if |c| == 1 {
      assert st.ring.Keys == {c[0]} by {
        forall id | id in st.ring ensures id == c[0] {
          var i := PositionOf(st.ring, c, id);
        }
      }
    } else {
      assert Succ(c, j) != c[j];
      BypassInCycle(st.ring, c, j);
    }
  }

  lemma SortedRemove(c: seq<int>, j: int)
    requires Sorted(c) && 0 <= j < |c|
    ensures Sorted(c[..j] + c[j + 1..])
  {
    var d := c[..j] + c[j + 1..];
    forall a, b | 0 <= a < b < |d| ensures d[a] < d[b] {
      var a' := if a < j then a else a + 1;
      var b' := if b < j then b else b + 1;
      assert d[a] == c[a'] && d[b] == c[b'];
    }
  }

  /** Removing a node from a sorted ring of two or more leaves a sorted ring. */
  lemma RemoveKeepsSorted(st: State, c: seq<int>, x: int) returns (d: seq<int>)
    requires IsCycle(st.ring, c) && Sorted(c) && Registered(st) && x in st.ring && |c| >= 2
    ensures IsCycle(Remove(st, x).state.ring, d) && Sorted(d) && |d| == |c| - 1
  {
    var j := PositionOf(st.ring, c, x);
    RemoveFromCycle(st, c, j);
    SortedRemove(c, j);
    d := c[..j] + c[j + 1..];
  }

  /** Each record after a splice and the matching bypass equals the original one. */
  lemma SpliceBypassValue(r: Ring, p: int, nid: int, x: int)
    requires Linked(r) && p in r && nid !in r && r[p].right in r && r[r[p].right].left == p && x in r
    ensures var r' := Bypass(Splice(r, p, nid), nid); x in r' && r'[x] == r[x]
  {
    var q := r[p].right;
    var ra := r[nid := Node(p, q, [])];
    var rb := ra[q := ra[q].(left := nid)];
    var r1 := rb[p := rb[p].(right := nid)];
    assert Splice(r, p, nid) == r1;
    var s1 := r1[p := r1[p].(right := q)];
    var s2 := s1[q := s1[q].(left := p)];
    assert Bypass(r1, nid) == s2;
    if x == q {
      assert s2[q] == r[q];
    } else if x == p {
      assert s2[p] == r[p];
    } else {
      assert s2[x] == r1[x] == r[x];
    }
  }

  lemma SpliceBypassKeys(r: Ring, p: int, nid: int)
    requires Linked(r) && p in r && nid !in r
    ensures (Bypass(Splice(r, p, nid), nid) - {nid}).Keys == r.Keys
  {
  }

  lemma SpliceBypassValues(r: Ring, p: int, nid: int)
    requires Linked(r) && p in r && nid !in r && r[p].right in r && r[r[p].right].left == p
    ensures var r2 := Bypass(Splice(r, p, nid), nid) - {nid}; forall x | x in r2 :: r2[x] == r[x]
  {
    var r2 := Bypass(Splice(r, p, nid), nid) - {nid};
    forall x | x in r2 ensures r2[x] == r[x] {
      SpliceBypassValue(r, p, nid, x);
    }
  }

  lemma SpliceBypassAt(r: Ring, p: int, nid: int)
    requires Linked(r) && p in r && nid !in r && r[p].right in r && r[r[p].right].left == p
    ensures SameRecords(Bypass(Splice(r, p, nid), nid) - {nid}, r)
  {
    SpliceBypassKeys(r, p, nid);
    SpliceBypassValues(r, p, nid);
  }

  /** Undoing a splice: bypassing the spliced node and dropping it restores every record. */
  lemma SpliceBypass(r: Ring, c: seq<int>, j: int, nid: int)
    requires IsCycle(r, c) && 0 <= j < |c| && nid !in r
    ensures SameRecords(Bypass(Splice(r, c[j], nid), nid) - {nid}, r)
  {
    Hop(r, c, j);
    Hop(r, c, if j + 1 < |c| then j + 1 else 0);
    SpliceBypassAt(r, c[j], nid);
  }

  /** Join followed by removal of the newcomer gives back the registry and the ring it started from. */
  lemma JoinThenRemove(st: State, c: seq<int>, s: int, nid: int)
    requires IsCycle(st.ring, c) && Registered(st) && s in st.ring && nid !in st.registry
    ensures Join(st, s, nid).Ok?
    ensures var st' := Remove(Join(st, s, nid).value, nid).state;
      st'.registry == st.registry && SameRecords(st'.ring, st.ring)
  {
    var r := st.ring;
    var e := CycleFrom(r, c, s);
    var j := InsertNodeSplices(r, e, nid);
    Hop(r, e, j);
    var p := e[j];
    var r1 := Splice(r, p, nid);
    assert r1[nid] == Node(p, r[p].right, []);
    assert r[p].right != nid;
    var st1 := State(st.registry + {nid}, r1);
    assert Join(st, s, nid) == Ok(st1);
    assert Remove(st1, nid).state == State(st.registry, Bypass(r1, nid) - {nid});
    SpliceBypass(r, e, j, nid);
  }
}

=== FILE: replication.dfy ===
/**
 Data placement and the replication hand-off of `dht_v1.py`, `node.py` and
 `dht.py`. A value goes to the node closest to its key (`find_responsible_node`)
 and to that node's two neighbours. `dht_v1.py` skips the write when the calling
 node already holds the key and skips a neighbour that already holds it;
 `node.py` and `dht.py` write all three copies unconditionally. Before a node of
 `dht_v1.py` leaves, it re-stores each of its entries on the neighbours that lack it.
 */
module Replication {
  import opened Arena
  import opened Routing
  import opened Membership

  /** The stores of `b` extend those of `a`; nodes and pointers are the same. */
  ghost predicate Extends(a: Ring, b: Ring) {
    SameLinks(a, b) && forall x | x in a :: a[x].store <= b[x].store
  }

  lemma ExtendsTrans(a: Ring, b: Ring, d: Ring)
    requires Extends(a, b) && Extends(b, d)
    ensures Extends(a, d)
  {
    SameLinksTrans(a, b, d);
    forall x | x in a ensures a[x].store <= d[x].store {
      assert b[x].store <= d[x].store;
    }
  }

  /** A key held before an extension is still held after it. */
  lemma ExtendsHasData(a: Ring, b: Ring, x: int, key: int)
    requires Extends(a, b) && x in a && HasData(a[x].store, key)
    ensures x in b && HasData(b[x].store, key)
  {
    var i :| 0 <= i < |a[x].store| && a[x].store[i].key == key;
    assert a[x].store <= b[x].store;
    assert b[x].store[i] == a[x].store[i];
  }

  /** Appends `e` to `y`'s store unless `y` already holds its key. */
  function AppendIfMissing(r: Ring, y: int, e: Entry): (r': Ring)
    requires Linked(r) && y in r
    ensures Linked(r') && Extends(r, r') && HasData(r'[y].store, e.key)
    ensures HasData(r[y].store, e.key) ==> r' == r
    ensures !HasData(r[y].store, e.key) ==> r'[y].store == r[y].store + [e]
    ensures forall z | z in r && z != y :: r'[z] == r[z]
  {
    if HasData(r[y].store, e.key) then r
    else
      var r' := Append(r, y, e);
      SameLinksLinked(r, r');
      HasDataAppend(r[y].store, e, e.key);
      r'
  }

  /**
   `store_data` of `dht_v1.py` called on `caller`: nothing happens when the caller
   already holds the key; otherwise the responsible node gets the entry, then its
   left and right neighbours get it unless they already hold the key.
   */
  function StoreDedup(r: Ring, caller: int, key: int, value: string): (r': Ring)
    requires Linked(r) && caller in r
    ensures Linked(r') && Extends(r, r')
    ensures HasData(r[caller].store, key) ==> r' == r
    ensures !HasData(r[caller].store, key) ==>
      var p := FindResponsible(r, caller, key);
      && r[p].left in r && r[p].right in r
      && HasData(r'[p].store, key)
      && HasData(r'[r[p].left].store, key)
      && HasData(r'[r[p].right].store, key)
  {
    if HasData(r[caller].store, key) then r
    else
      var e := Entry(key, value);
      var p := FindResponsible(r, caller, key);
      Follow(r, p);
      var r1 := Append(r, p, e);
      SameLinksLinked(r, r1);
      HasDataAppend(r[p].store, e, key);
      var r2 := AppendIfMissing(r1, r1[p].left, e);
      var r3 := AppendIfMissing(r2, r2[p].right, e);
      ExtendsTrans(r, r1, r2);
      ExtendsTrans(r, r2, r3);
      ExtendsHasData(r1, r3, p, key);
      ExtendsHasData(r2, r3, r[p].left, key);
      r3
  }

  /**
   What `store_data` of `dht_v1.py` writes, node by node: nothing at all when the
   caller holds the key; otherwise one copy on the responsible node, and one copy
   on each of its neighbours that lacked the key, never two on the same node.
   */
  lemma StoreDedupEffect(r: Ring, caller: int, key: int, value: string, x: int)
    requires Linked(r) && caller in r && x in r
    ensures var p := FindResponsible(r, caller, key);
      && r[p].left in r && r[p].right in r
      && StoreDedup(r, caller, key, value)[x].store == r[x].store +
        (if !HasData(r[caller].store, key) && (x == p || ((x == r[p].left || x == r[p].right) && !HasData(r[x].store, key)))
         then [Entry(key, value)] else [])
  {
    var e := Entry(key, value);
    var p := FindResponsible(r, caller, key);
    Follow(r, p);
    if !HasData(r[caller].store, key) {
      var l := r[p].left;
      var q := r[p].right;
      var r1 := Append(r, p, e);
      SameLinksLinked(r, r1);
      HasDataAppend(r[p].store, e, key);
      var r2 := AppendIfMissing(r1, l, e);
      var r3 := AppendIfMissing(r2, q, e);
      assert StoreDedup(r, caller, key, value) == r3;
      if x == p {
        assert r2[x] == r1[x];
        assert r3[x] == r2[x];
      } else if x == l {
        assert r1[x] == r[x];
        if q == l {
          assert r3 == r2;
        }
        assert r3[x] == r2[x];
      } else if x == q {
        assert r2[x] == r[x];
      } else {
        assert r3[x] == r[x];
      }
    }
  }

  /** `n` copies of `e`. */
  function Repeat(e: Entry, n: nat): (s: seq<Entry>)
    ensures |s| == n && forall i | 0 <= i < n :: s[i] == e
  {
    if n == 0 then [] else Repeat(e, n - 1) + [e]
  }

  lemma {:induction false} RepeatAdd(e: Entry, a: nat, b: nat)
    ensures Repeat(e, a) + Repeat(e, b) == Repeat(e, a + b)
  {
    if b > 0 {
      RepeatAdd(e, a, b - 1);
    }
  }

  /** Three appends in a row leave each node with one copy per time it was targeted. */
  lemma AppendThree(r: Ring, p: int, l: int, q: int, e: Entry, x: int)
    requires p in r && l in r && q in r && x in r
    ensures Append(Append(Append(r, p, e), l, e), q, e)[x].store == r[x].store + Repeat(e, multiset{p, l, q}[x])
  {
    var r1 := Append(r, p, e);
    var r2 := Append(r1, l, e);
    var a := if x == p then 1 else 0;
    var b := if x == l then 1 else 0;
    var d := if x == q then 1 else 0;
    assert multiset{p, l, q}[x] == a + b + d;
    assert r1[x].store == r[x].store + Repeat(e, a);
    RepeatAdd(e, a, b);
    assert r2[x].store == r[x].store + Repeat(e, a + b);
    RepeatAdd(e, a + b, d);
  }

  /**
   The three appends every replicated write ends with: the entry goes to `p`, then
   to `p.left`, then to `p.right`, with no check for a key already held. Every node
   gains one copy per occurrence among the three targets; nothing else changes.
   */
  function StoreAt(r: Ring, p: int, e: Entry): (r': Ring)
    requires Linked(r) && p in r
    ensures Linked(r') && Extends(r, r') && r[p].left in r && r[p].right in r
    ensures forall x | x in r ::
      r'[x].store == r[x].store + Repeat(e, multiset{p, r[p].left, r[p].right}[x])
  {
    Follow(r, p);
    var l := r[p].left;
    var q := r[p].right;
    var r1 := Append(r, p, e);
    var r2 := Append(r1, l, e);
    var r3 := Append(r2, q, e);
    SameLinksTrans(r, r1, r2);
    SameLinksTrans(r, r2, r3);
    SameLinksLinked(r, r3);
    forall x | x in r
      ensures r3[x].store == r[x].store + Repeat(e, multiset{p, l, q}[x])
    {
      AppendThree(r, p, l, q, e, x);
    }
    r3
  }

  /** `store_data` of `node.py` and `dht.py`: the three appends at the node responsible for the key. */
  function StoreAll(r: Ring, caller: int, key: int, value: string): (r': Ring)
    requires Linked(r) && caller in r
    ensures Linked(r') && Extends(r, r')
    ensures var p := FindResponsible(r, caller, key);
      && r[p].left in r && r[p].right in r
      && forall x | x in r ::
        r'[x].store == r[x].store + Repeat(Entry(key, value), multiset{p, r[p].left, r[p].right}[x])
  {
    StoreAt(r, FindResponsible(r, caller, key), Entry(key, value))
  }

  /** On a ring of three or more nodes the responsible node and its two neighbours each get exactly one copy, and nobody else gets any. */
  lemma StoreAllSpread(r: Ring, c: seq<int>, caller: int, key: int, value: string)
    requires IsCycle(r, c) && |c| >= 3 && caller in r
    ensures var p := FindResponsible(r, caller, key); var r' := StoreAll(r, caller, key, value);
      && r[p].left != p && r[p].right != p && r[p].left != r[p].right
      && forall x | x in r ::
        r'[x].store == r[x].store + (if x == p || x == r[p].left || x == r[p].right then [Entry(key, value)] else [])
  {
    var p := FindResponsible(r, caller, key);
    var j := PositionOf(r, c, p);
    Hop(r, c, j);
  }

  /** On a ring of two nodes the responsible node gets one copy and the other node two. */
  lemma StoreAllPair(r: Ring, c: seq<int>, caller: int, key: int, value: string)
    requires IsCycle(r, c) && |c| == 2 && caller in r
    ensures var p := FindResponsible(r, caller, key); var r' := StoreAll(r, caller, key, value);
      && r[p].left == r[p].right != p
      && r'[p].store == r[p].store + [Entry(key, value)]
      && r'[r[p].left].store == r[r[p].left].store + [Entry(key, value), Entry(key, value)]
  {
    var p := FindResponsible(r, caller, key);
    var j := PositionOf(r, c, p);
    Hop(r, c, j);
    assert Repeat(Entry(key, value), 2) == [Entry(key, value), Entry(key, value)];
  }

  /** A lone node is its own neighbour on both sides and receives all three copies. */
  lemma StoreAllLone(r: Ring, c: seq<int>, caller: int, key: int, value: string)
    requires IsCycle(r, c) && |c| == 1 && caller in r
    ensures var r' := StoreAll(r, caller, key, value);
      && FindResponsible(r, caller, key) == caller
      && r'[caller].store == r[caller].store + [Entry(key, value), Entry(key, value), Entry(key, value)]
  {
    var p := FindResponsible(r, caller, key);
    var j := PositionOf(r, c, p);
    var i := PositionOf(r, c, caller);
    Hop(r, c, j);
    assert Repeat(Entry(key, value), 3) == [Entry(key, value), Entry(key, value), Entry(key, value)];
  }

  /** `is_central_node`: the node and both its neighbours hold the key. */
  predicate IsCentral(r: Ring, x: int, key: int)
    requires Linked(r) && x in r
  {
    Follow(r, x);
    HasData(r[x].store, key) && HasData(r[r[x].left].store, key) && HasData(r[r[x].right].store, key)
  }

  /** `is_left_node`: the left neighbour lacks the key. */
  predicate IsLeftNode(r: Ring, x: int, key: int)
    requires Linked(r) && x in r
  {
    Follow(r, x);
    !HasData(r[r[x].left].store, key)
  }

  /** `is_right_node`: the right neighbour lacks the key. */
  predicate IsRightNode(r: Ring, x: int, key: int)
    requires Linked(r) && x in r
  {
    Follow(r, x);
    !HasData(r[r[x].right].store, key)
  }

  /**
   For a key the leaving node holds, the three tests of the hand-off cover every
   case: the node is central exactly when it is neither a left nor a right node,
   so the hand-off never falls through without a branch.
   */
  lemma ClassifyHeld(r: Ring, x: int, key: int)
    requires Linked(r) && x in r && HasData(r[x].store, key)
    ensures IsCentral(r, x, key) <==> !IsLeftNode(r, x, key) && !IsRightNode(r, x, key)
  {
  }

  /** A re-store through `store_data` on `y`, made only when `y` lacks the key, as the hand-off of `dht_v1.py` writes it. */
  function ForwardIfMissing(r: Ring, y: int, d: Entry): (r': Ring)
    requires Linked(r) && y in r
    ensures Linked(r') && Extends(r, r')
    ensures HasData(r[y].store, d.key) ==> r' == r
  {
    if !HasData(r[y].store, d.key) then StoreDedup(r, y, d.key, d.value) else r
  }

  /**
   One iteration of the hand-off loop of `remove` in `dht_v1.py` for the entry `d`
   of the leaving node `x`: a central node re-stores on the node two to its left
   and then on the node two to its right; otherwise the left neighbour, and
   failing that the right neighbour, gets it when it lacks the key. Every write
   goes through `store_data`, so it lands on the node responsible for the key.
   */
  function HandOffEntryAsWritten(r: Ring, x: int, d: Entry): (r': Ring)
    requires Linked(r) && x in r
    ensures Linked(r') && Extends(r, r')
  {
    Follow(r, x);
    var l := r[x].left;
    var q := r[x].right;
    Follow(r, l);
    Follow(r, q);
    if IsCentral(r, x, d.key) then
      var r1 := ForwardIfMissing(r, r[l].left, d);
      var r2 := ForwardIfMissing(r1, r[q].right, d);
      ExtendsTrans(r, r1, r2);
      r2
    else if IsLeftNode(r, x, d.key) then ForwardIfMissing(r, l, d)
    else if IsRightNode(r, x, d.key) then ForwardIfMissing(r, q, d)
    else r
  }

  /**
   The loop `for data in self.data_store` from position `i`: Python's list
   iterator re-reads the length at each step, so entries appended to the leaving
   node during the loop are visited too. `fuel` bounds the number of iterations;
   None means the loop had not finished when the fuel ran out.
   */
  function HandOffLoopAsWritten(r: Ring, x: int, i: nat, fuel: nat): (o: Option<Ring>)
    requires Linked(r) && x in r
    ensures o.Some? ==> Linked(o.value) && Extends(r, o.value)
    decreases fuel
  {
    if i >= |r[x].store| then Some(r)
    else if fuel == 0 then None
    else
      var r1 := HandOffEntryAsWritten(r, x, r[x].store[i]);
      var o := HandOffLoopAsWritten(r1, x, i + 1, fuel - 1);
      if o.Some? then ExtendsTrans(r, r1, o.value); o else o
  }

  /**
   `remove` of `dht_v1.py` as written: a lone node simply leaves; any other node
   first runs the hand-off loop (within `fuel` iterations) and then unlinks itself.
   */
  function RemoveV1AsWritten(st: State, x: int, fuel: nat): (o: Option<Removal>)
    requires Linked(st.ring) && x in st.ring && Registered(st)
    ensures o.Some? ==> o.value.state.registry == st.registry - {x} && o.value.state.ring.Keys == st.ring.Keys - {x}
  {
    var r := st.ring;
    if r[x].left == x && r[x].right == x then Some(Remove(st, x))
    else
      match HandOffLoopAsWritten(r, x, 0, fuel)
      case None => None
      case Some(r') => Some(Remove(State(st.registry, r'), x))
  }

  /**
   A ring in which the hand-off of `c[0]` never ends: `c[0]` is strictly the
   nearest node to `key`, holds only entries for `key`, its two neighbours hold
   the key, and the nodes two steps away on either side do not.
   */
  ghost predicate Trapped(r: Ring, c: seq<int>, key: int) {
    && IsCycle(r, c) && |c| >= 4
    && (forall j | 1 <= j < |c| :: Dist(c[j], key) > Dist(c[0], key))
    && HasData(r[c[1]].store, key) && HasData(r[c[|c| - 1]].store, key)
    && !HasData(r[c[2]].store, key) && !HasData(r[c[|c| - 2]].store, key)
    && (forall i | 0 <= i < |r[c[0]].store| :: r[c[0]].store[i].key == key)
  }

  /** From any start, the walk of `find_responsible_node` settles on the strictly nearest node. */
  lemma NearestResponsible(r: Ring, c: seq<int>, key: int, s: int)
    requires IsCycle(r, c) && s in r
    requires forall j | 1 <= j < |c| :: Dist(c[j], key) > Dist(c[0], key)
    ensures FindResponsible(r, s, key) == c[0]
  {
    var d := CycleFrom(r, c, s);
    var m := FindResponsibleClosest(r, d, key);
    var a := PositionOf(r, d, c[0]);
    assert Dist(d[m], key) <= Dist(d[a], key);
    var b := PositionOf(r, c, d[m]);
    if b != 0 {
      assert false;
    }
  }

  /** A re-store from a node lacking the key only adds one copy to `c[0]`; every other store is unchanged. */
  lemma TrappedForward(r: Ring, c: seq<int>, y: int, d: Entry)
    requires Trapped(r, c, d.key) && y in r && !HasData(r[y].store, d.key)
    ensures var r' := ForwardIfMissing(r, y, d);
      && Extends(r, r')
      && r'[c[0]].store == r[c[0]].store + [d]
      && forall z | z in r && z != c[0] :: r'[z].store == r[z].store
  {
    var k := d.key;
    Hop(r, c, 0);
    NearestResponsible(r, c, k, y);
    var r' := ForwardIfMissing(r, y, d);
    assert r' == StoreDedup(r, y, k, d.value);
    assert Entry(k, d.value) == d;
    forall z | z in r
      ensures r'[z].store == r[z].store + (if z == c[0] then [d] else [])
    {
      StoreDedupEffect(r, y, k, d.value, z);
    }
  }

  /** Adding entries for `key` to `c[0]` alone keeps the ring trapped. */
  lemma TrappedKeep(r: Ring, r': Ring, c: seq<int>, key: int, extra: seq<Entry>)
    requires Trapped(r, c, key) && SameLinks(r, r')
    requires r'[c[0]].store == r[c[0]].store + extra && forall i | 0 <= i < |extra| :: extra[i].key == key
    requires forall z | z in r && z != c[0] :: r'[z].store == r[z].store
    ensures Trapped(r', c, key)
  {
    SameLinksCycle(r, r', c);
    var n := |c|;
    Hop(r, c, 0);
    assert c[1] != c[0] && c[n - 1] != c[0] && c[2] != c[0] && c[n - 2] != c[0];
    var s := r'[c[0]].store;
    forall i | 0 <= i < |s| ensures s[i].key == key {
      if i >= |r[c[0]].store| {
        assert s[i] == extra[i - |r[c[0]].store|];
      }
    }
  }

  /** The leaving node of a trapped ring is central, and its neighbourhood is `c[n-2], c[n-1], c[0], c[1], c[2]`. */
  lemma TrappedCentral(r: Ring, c: seq<int>, key: int)
    requires Trapped(r, c, key) && HasData(r[c[0]].store, key)
    ensures var n := |c|;
      && r[c[0]].left == c[n - 1] && r[c[0]].right == c[1]
      && r[c[n - 1]].left == c[n - 2] && r[c[1]].right == c[2]
      && IsCentral(r, c[0], key)
  {
    var n := |c|;
    Hop(r, c, 0);
    Hop(r, c, 1);
    Hop(r, c, n - 1);
  }

  /** One iteration on a trapped ring: `c[0]` is central, both re-stores route back to it, and it gains two entries. */
  lemma TrappedStep(r: Ring, c: seq<int>, d: Entry)
    requires Trapped(r, c, d.key) && HasData(r[c[0]].store, d.key)
    ensures var r' := HandOffEntryAsWritten(r, c[0], d);
      Trapped(r', c, d.key) && |r'[c[0]].store| == |r[c[0]].store| + 2
  {
    var n := |c|;
    var x := c[0];
    TrappedCentral(r, c, d.key);
    var r1 := ForwardIfMissing(r, c[n - 2], d);
    TrappedForward(r, c, c[n - 2], d);
    TrappedKeep(r, r1, c, d.key, [d]);
    assert c[2] != x;
    var r2 := ForwardIfMissing(r1, c[2], d);
    TrappedForward(r1, c, c[2], d);
    TrappedKeep(r1, r2, c, d.key, [d]);
    assert HandOffEntryAsWritten(r, x, d) == r2;
  }

  /** A loop whose remaining iterations run out of fuel runs out of fuel from one iteration earlier. */
  lemma LoopStepNone(r: Ring, x: int, i: nat, fuel: nat, r1: Ring, j: nat, f: nat)
    requires Linked(r) && x in r && i < |r[x].store| && fuel > 0 && j == i + 1 && f == fuel - 1
    requires r1 == HandOffEntryAsWritten(r, x, r[x].store[i])
    requires HandOffLoopAsWritten(r1, x, j, f).None?
    ensures HandOffLoopAsWritten(r, x, i, fuel).None?
  {
  }

  /** On a trapped ring the hand-off loop never reaches the end of the leaving node's store, whatever the fuel. */
  lemma {:induction false} HandOffLoopDiverges(r: Ring, c: seq<int>, key: int, i: nat, fuel: nat)
    requires Trapped(r, c, key) && i < |r[c[0]].store|
    ensures HandOffLoopAsWritten(r, c[0], i, fuel).None?
    decreases fuel
  {
    if fuel > 0 {
      var d := r[c[0]].store[i];
      assert d.key == key;
      assert HasData(r[c[0]].store, key);
      TrappedStep(r, c, d);
      var r1 := HandOffEntryAsWritten(r, c[0], d);
      var j: nat := i + 1;
      var f: nat := fuel - 1;
      HandOffLoopDiverges(r1, c, key, j, f);
      LoopStepNone(r, c[0], i, fuel, r1, j, f);
    }
  }

  /** `remove` of `dht_v1.py` does not return for a non-empty trapped node. */
  lemma RemoveV1Diverges(st: State, c: seq<int>, key: int, fuel: nat)
    requires Registered(st) && Trapped(st.ring, c, key) && |st.ring[c[0]].store| > 0
    ensures RemoveV1AsWritten(st, c[0], fuel).None?
  {
    Hop(st.ring, c, 0);
    HandOffLoopDiverges(st.ring, c, key, 0, fuel);
  }

  const Sample := Entry(30, "v")

  /** Nodes 10, 20, 30, 40, 50 in a ring; key 30 is stored on 20, 30 and 40, as `store_data` leaves it. */
  function SampleRing(): Ring {
    map[10 := Node(50, 20, []), 20 := Node(10, 30, [Sample]), 30 := Node(20, 40, [Sample]),
        40 := Node(30, 50, [Sample]), 50 := Node(40, 10, [])]
  }

  /** The sample ring, seen from node 30, is trapped for key 30. */
  lemma SampleTrapped()
    ensures Trapped(SampleRing(), [30, 40, 50, 10, 20], 30)
  {
    var r := SampleRing();
    var c := [30, 40, 50, 10, 20];
    forall i | 0 <= i < |c| ensures HopOk(r, c, i) {
    }
    forall id | id in r ensures Covers(c, id) {
    }
    ShapeIsCycle(r, c);
    assert r[40].store[0].key == 30;
  }

  lemma SampleLinked()
    ensures Linked(SampleRing()) && SampleRing().Keys == {10, 20, 30, 40, 50}
    ensures SampleRing()[30].left == 20 && SampleRing()[30].store == [Sample]
  {
    SampleTrapped();
  }

  /** Removing node 30 from the sample ring with `remove` of `dht_v1.py` never returns, however long it runs. */
  lemma SampleRemoveDiverges(fuel: nat)
    ensures RemoveV1AsWritten(State({10, 20, 30, 40, 50}, SampleRing()), 30, fuel).None?
  {
    SampleTrapped();
    RemoveV1Diverges(State({10, 20, 30, 40, 50}, SampleRing()), [30, 40, 50, 10, 20], 30, fuel);
  }

  /**
   The nodes one step of the corrected hand-off copies an entry with `key` onto:
   for a central node, whichever of the two nodes two steps away lack the key;
   otherwise the left neighbour when it lacks the key, failing that the right one.
   */
  function Receivers(r: Ring, x: int, key: int): (s: set<int>)
    requires Linked(r) && x in r
    ensures forall z | z in s :: z in r && !HasData(r[z].store, key)
  {
    Follow(r, x);
    var l := r[x].left;
    var q := r[x].right;
    Follow(r, l);
    Follow(r, q);
    if IsCentral(r, x, key) then
      var ll := r[l].left;
      var rr := r[q].right;
      (if HasData(r[ll].store, key) then {} else {ll}) + (if HasData(r[rr].store, key) then {} else {rr})
    else if IsLeftNode(r, x, key) then {l}
    else if IsRightNode(r, x, key) then {q}
    else {}
  }

  /** The neighbours of `x` and the nodes two steps away from it. */
  ghost function Near(r: Ring, x: int): set<int>
    requires Linked(r) && x in r
  {
    Follow(r, x);
    var l := r[x].left;
    var q := r[x].right;
    Follow(r, l);
    Follow(r, q);
    {l, q, r[l].left, r[q].right}
  }

  lemma NearSame(a: Ring, b: Ring, x: int)
    requires Linked(a) && SameLinks(a, b) && x in a
    ensures Linked(b) && x in b && Near(b, x) == Near(a, x)
  {
    SameLinksLinked(a, b);
    Follow(a, x);
    Follow(a, a[x].left);
    Follow(a, a[x].right);
  }

  /**
   One step of the hand-off as evidently intended: the same three tests, but the
   copy is appended directly to the chosen node, with no re-routing through the
   responsible node, and only when that node lacks the key.
   */
  function HandOffEntry(r: Ring, x: int, d: Entry): (r': Ring)
    requires Linked(r) && x in r
    ensures Linked(r') && Extends(r, r') && r[x].left in r
    ensures HasData(r[x].store, d.key) ==> HasData(r'[r[x].left].store, d.key) && r'[x].store == r[x].store
    ensures forall z | z in r :: r'[z].store == r[z].store || r'[z].store == r[z].store + [d]
    ensures Receivers(r, x, d.key) <= Near(r, x)
    ensures forall z | z in r :: r'[z].store == r[z].store + (if z in Receivers(r, x, d.key) then [d] else [])
  {
    Follow(r, x);
    var l := r[x].left;
    var q := r[x].right;
    Follow(r, l);
    Follow(r, q);
    if IsCentral(r, x, d.key) then
      var ll := r[l].left;
      var rr := r[q].right;
      var r1 := AppendIfMissing(r, ll, d);
      var r2 := AppendIfMissing(r1, rr, d);
      ExtendsTrans(r, r1, r2);
      ExtendsHasData(r, r2, l, d.key);
      assert forall z | z in r :: r2[z].store == r[z].store + (if z in Receivers(r, x, d.key) then [d] else []) by {
        forall z | z in r
          ensures r2[z].store == r[z].store + (if z in Receivers(r, x, d.key) then [d] else [])
        {
          if z == ll && !HasData(r[ll].store, d.key) {
            assert HasData(r1[rr].store, d.key) || rr != z;
          }
        }
      }
      r2
    else if IsLeftNode(r, x, d.key) then AppendIfMissing(r, l, d)
    else if IsRightNode(r, x, d.key) then
      var r' := AppendIfMissing(r, q, d);
      ExtendsHasData(r, r', l, d.key);
      r'
    else r
  }

  /** The hand-off over a snapshot `es` of the leaving node's store. */
  function HandOff(r: Ring, x: int, es: seq<Entry>): (r': Ring)
    requires Linked(r) && x in r
    ensures Linked(r') && Extends(r, r')
    ensures forall z | z in r && z !in Near(r, x) :: r'[z].store == r[z].store
    ensures forall z, i | z in r && |r[z].store| <= i < |r'[z].store| :: r'[z].store[i] in es
    decreases |es|
  {
    if es == [] then r
    else
      var r1 := HandOffEntry(r, x, es[0]);
      var r2 := HandOff(r1, x, es[1..]);
      ExtendsTrans(r, r1, r2);
      NearSame(r, r1, x);
      assert forall z, i | z in r && |r[z].store| <= i < |r2[z].store| :: r2[z].store[i] in es by {
        forall z, i | z in r && |r[z].store| <= i < |r2[z].store| ensures r2[z].store[i] in es {
          assert r1[z].store <= r2[z].store;
          if i >= |r1[z].store| {
            assert r2[z].store[i] in es[1..];
          } else {
            assert r1[z].store[i] == es[0];
          }
        }
      }
      r2
  }

  /**
   After the hand-off of entries whose keys the leaving node holds, its left
   neighbour holds every one of those keys, and the leaving node's own store is
   untouched.
   */
  lemma {:induction false} HandOffKeeps(r: Ring, x: int, es: seq<Entry>)
    requires Linked(r) && x in r
    requires forall i | 0 <= i < |es| :: HasData(r[x].store, es[i].key)
    ensures r[x].left in r
    ensures var r' := HandOff(r, x, es);
      && r'[x].store == r[x].store
      && forall i | 0 <= i < |es| :: HasData(r'[r[x].left].store, es[i].key)
    decreases |es|
  {
    Follow(r, x);
    if es != [] {
      var l := r[x].left;
      var r1 := HandOffEntry(r, x, es[0]);
      assert r1[x].left == l;
      var tail := es[1..];
      assert forall i | 0 <= i < |tail| :: HasData(r1[x].store, tail[i].key) by {
        forall i | 0 <= i < |tail| ensures HasData(r1[x].store, tail[i].key) {
          assert tail[i] == es[i + 1];
        }
      }
      HandOffKeeps(r1, x, tail);
      var r2 := HandOff(r1, x, tail);
      assert r2 == HandOff(r, x, es);
      ExtendsHasData(r1, r2, l, es[0].key);
      forall i | 0 <= i < |es| ensures HasData(r2[l].store, es[i].key) {
        if i > 0 {
          assert es[i] == tail[i - 1];
        }
      }
    }
  }

  /**
   `remove` of `dht_v1.py` with the hand-off corrected: it always returns, the
   node leaves the registry and the ring, no other store loses anything, and
   every key it held is on its left neighbour afterwards.
   */
  function RemoveV1(st: State, x: int): (out: Removal)
    requires Linked(st.ring) && x in st.ring && Registered(st)
    ensures out.state.registry == st.registry - {x} && out.state.ring.Keys == st.ring.Keys - {x}
    ensures st.ring[x].left in st.ring
    ensures forall z | z in out.state.ring :: st.ring[z].store <= out.state.ring[z].store
    ensures st.ring[x].left != x ==>
      forall key | HasData(st.ring[x].store, key) :: HasData(out.state.ring[st.ring[x].left].store, key)
    ensures forall z | z in out.state.ring && z !in Near(st.ring, x) :: out.state.ring[z].store == st.ring[z].store
    ensures forall z, i | z in out.state.ring && |st.ring[z].store| <= i < |out.state.ring[z].store| ::
      out.state.ring[z].store[i] in st.ring[x].store
  {
    var r := st.ring;
    Follow(r, x);
    if r[x].left == x && r[x].right == x then Remove(st, x)
    else
      var es := r[x].store;
      var r' := HandOff(r, x, es);
      HandOffKeeps(r, x, es);
      var out := Remove(State(st.registry, r'), x);
      assert forall key | HasData(r[x].store, key) :: HasData(r'[r[x].left].store, key) by {
        forall key | HasData(r[x].store, key) ensures HasData(r'[r[x].left].store, key) {
          var i :| 0 <= i < |es| && es[i].key == key;
        }
      }
      out
  }

  /** A node that is not alone leaves after handing off a snapshot of its store; the stores left behind are those the hand-off produced. */
  lemma RemoveV1Stores(st: State, x: int)
    requires Linked(st.ring) && x in st.ring && Registered(st) && st.ring[x].left != x
    ensures var ring := RemoveV1(st, x).state.ring; var h := HandOff(st.ring, x, st.ring[x].store);
      forall z | z in ring :: z in h && ring[z].store == h[z].store
  {
  }

  /** The corrected removal of the `j`-th node of a cycle of two or more closes the cycle around it. */
  lemma RemoveV1InCycle(st: State, c: seq<int>, j: int)
    requires IsCycle(st.ring, c) && Registered(st) && 0 <= j < |c| && |c| >= 2
    ensures IsCycle(RemoveV1(st, c[j]).state.ring, c[..j] + c[j + 1..])
  {
    var r := st.ring;
    var x := c[j];
    Hop(r, c, j);
    assert r[x].left != x;
    var r' := HandOff(r, x, r[x].store);
    SameLinksCycle(r, r', c);
    BypassInCycle(r', c, j);
    assert RemoveV1(st, x).state.ring == Bypass(r', x) - {x};
  }

  /**
   The corrected hand-off of an entry whose key a central node holds leaves that
   key on the two nodes on each side of it, so that after the node leaves the key
   is still on the three or more nodes around the gap.
   */
  lemma HandOffCentralSpreads(r: Ring, c: seq<int>, d: Entry)
    requires IsCycle(r, c) && IsCentral(r, c[0], d.key)
    ensures var h := HandOffEntry(r, c[0], d);
      forall j | 0 <= j < |c| && (j <= 2 || j >= |c| - 2) :: HasData(h[c[j]].store, d.key)
  {
    var n := |c|;
    var x := c[0];
    var h := HandOffEntry(r, x, d);
    forall j | 0 <= j < n && (j <= 2 || j >= n - 2) ensures HasData(h[c[j]].store, d.key) {
      Hop(r, c, 0);
      if j == 1 {
        assert c[j] == r[x].right;
      } else if j == 2 {
        Hop(r, c, 1);
        assert c[j] == r[r[x].right].right;
      } else if j == n - 1 {
        assert c[j] == r[x].left;
      } else if j == n - 2 {
        Hop(r, c, n - 1);
        assert c[j] == r[r[x].left].left;
      }
      CentralKeeps(r, x, d, c[j]);
    }
  }

  /** One node of the five around a central node: it holds the key after the corrected hand-off. */
  lemma CentralKeeps(r: Ring, x: int, d: Entry, z: int)
    requires Linked(r) && x in r && IsCentral(r, x, d.key)
    requires z in r && (z == x || z in Near(r, x))
    ensures HasData(HandOffEntry(r, x, d)[z].store, d.key)
  {
    Follow(r, x);
    var l := r[x].left;
    var q := r[x].right;
    Follow(r, l);
    Follow(r, q);
    assert z in r;
    var h := HandOffEntry(r, x, d);
    if HasData(r[z].store, d.key) {
      ExtendsHasData(r, h, z, d.key);
    } else {
      assert z in Receivers(r, x, d.key);
      assert h[z].store[|r[z].store|] == d;
    }
  }

  /** On the sample ring the corrected hand-off of node 30 copies key 30 to nodes 10 and 50. */
  lemma SampleHandOff(r: Ring)
    requires r == SampleRing()
    ensures var h := HandOff(r, 30, [Sample]);
      forall id | id in h && id != 30 :: HasData(h[id].store, 30)
  {
    var c := [30, 40, 50, 10, 20];
    SampleTrapped();
    TrappedCentral(r, c, 30);
    assert HandOff(r, 30, [Sample]) == HandOffEntry(r, 30, Sample);
    HandOffCentralSpreads(r, c, Sample);
  }

  lemma SampleRemoveKeys(st: State)
    requires st == State({10, 20, 30, 40, 50}, SampleRing())
    ensures Linked(st.ring) && st.ring[30].left == 20 && Registered(st)
    ensures RemoveV1(st, 30).state.ring.Keys == {10, 20, 40, 50}
  {
    SampleLinked();
  }

  /** On the sample ring the corrected removal of node 30 returns and leaves key 30 on all four remaining nodes. */
  lemma SampleRemoveRestores(st: State)
    requires st == State({10, 20, 30, 40, 50}, SampleRing())
    ensures var ring := RemoveV1(st, 30).state.ring;
      ring.Keys == {10, 20, 40, 50} && forall id | id in ring :: HasData(ring[id].store, 30)
  {
    SampleRemoveKeys(st);
    SampleHandOff(st.ring);
    RemoveV1Stores(st, 30);
  }
}

=== FILE: routing.dfy ===
/**
 Hop-by-hop walks of `dht_v1.py`, `node.py` and `dht.py`: message forwarding,
 data-request forwarding, and the full-ring scan that picks the node closest to
 a key. All three variants share these loops verbatim.
 */
module Routing {
  import opened Arena

  /** Where a walk stopped: the node reached and the hops taken from the origin. */
  datatype Outcome = Found(id: int, hops: nat) | NotFound

  /** What a walk is looking for: a node by identifier (`forward`) or a holder of a key (`forward_data_request`). */
  datatype Goal = Target(target: int) | Holder(key: int)

  /** Whether the live node `id` is what the walk is looking for. */
  predicate Hits(r: Ring, g: Goal, id: int)
    requires id in r
  {
    match g
    case Target(t) => id == t
    case Holder(k) => HasData(r[id].store, k)
  }

  function ScanFrom(r: Ring, origin: int, g: Goal, cur: int, hops: nat, fuel: nat): (o: Outcome)
    requires Linked(r) && cur in r
    ensures o.Found? ==> o.id in r && o.id != origin && Hits(r, g, o.id) && hops <= o.hops < hops + fuel
    decreases fuel
  {
    if fuel == 0 || cur == origin then NotFound
    else if Hits(r, g, cur) then Found(cur, hops)
    else
      Follow(r, cur);
      ScanFrom(r, origin, g, r[cur].right, hops + 1, fuel - 1)
  }

  /** The loop of `forward` and `forward_data_request`: start at `origin.right`, stop at the first hit or back at the origin. */
  function Scan(r: Ring, origin: int, g: Goal): (o: Outcome)
    requires Linked(r) && origin in r
    ensures o.Found? ==> o.id in r && o.id != origin && Hits(r, g, o.id) && 1 <= o.hops <= |r|
  {
    Follow(r, origin);
    ScanFrom(r, origin, g, r[origin].right, 1, |r|)
  }

  /** `c[h]` is the first hit of the witness at or after index `lo`. */
  ghost predicate FirstHit(r: Ring, c: seq<int>, g: Goal, lo: int, h: int)
    requires forall i | 0 <= i < |c| :: c[i] in r
  {
    && lo <= h < |c| && 0 <= lo
    && Hits(r, g, c[h])
    && forall m | lo <= m < h :: !Hits(r, g, c[m])
  }

  lemma {:induction false} ScanAlongCycle(r: Ring, c: seq<int>, g: Goal, k: int, fuel: nat)
    requires IsCycle(r, c) && 1 <= k <= |c| && fuel >= |c| - k + 1
    ensures var o := ScanFrom(r, c[0], g, if k < |c| then c[k] else c[0], k, fuel);
      && (o.Found? <==> exists j | k <= j < |c| :: Hits(r, g, c[j]))
      && (o.Found? ==> FirstHit(r, c, g, k, o.hops) && o.id == c[o.hops])
    decreases |c| - k
  {
    Hop(r, c, 0);
    if k < |c| {
      Hop(r, c, k);
      assert c[k] != c[0];
      if Hits(r, g, c[k]) {
        assert FirstHit(r, c, g, k, k);
      } else {
        assert !Hits(r, g, c[k]);
        ScanAlongCycle(r, c, g, k + 1, fuel - 1);
        var o := ScanFrom(r, c[0], g, if k + 1 < |c| then c[k + 1] else c[0], k + 1, fuel - 1);
        assert ScanFrom(r, c[0], g, c[k], k, fuel) == o;
        if o.Found? {
          assert FirstHit(r, c, g, k, o.hops);
        }
        if exists j | k <= j < |c| :: Hits(r, g, c[j]) {
          var j :| k <= j < |c| && Hits(r, g, c[j]);
          assert j != k;
        }
      }
    }
  }

  /**
   From the origin `c[0]` of a witness, the walk finds a hit iff some node other
   than the origin is one; it then stops at the first, after fewer than n hops.
   */
  lemma ScanCycle(r: Ring, c: seq<int>, g: Goal)
    requires IsCycle(r, c)
    ensures var o := Scan(r, c[0], g);
      && (o.Found? <==> exists j | 1 <= j < |c| :: Hits(r, g, c[j]))
      && (o.Found? ==> FirstHit(r, c, g, 1, o.hops) && o.id == c[o.hops])
  {
    CycleSize(r, c);
    Hop(r, c, 0);
    ScanAlongCycle(r, c, g, 1, |r|);
  }

  /** `forward`: carries a message from `origin` towards the node whose identifier is `target`. */
  function Forward(r: Ring, origin: int, target: int): (o: Outcome)
    requires Linked(r) && origin in r
    ensures o.Found? ==> o.id == target && target in r && target != origin
  {
    Scan(r, origin, Target(target))
  }

  /**
   A message reaches its target iff the target is live and is not the origin;
   it takes as many hops as the target lies to the right of the origin, fewer
   than n.
   */
  lemma ForwardDelivers(r: Ring, c: seq<int>, target: int)
    requires IsCycle(r, c)
    ensures var o := Forward(r, c[0], target);
      && (o.Found? <==> target in r && target != c[0])
      && (o.Found? ==> o.hops < |c| && c[o.hops] == target)
  {
    ScanCycle(r, c, Target(target));
    if target in r && target != c[0] {
      var j := PositionOf(r, c, target);
      assert j >= 1 && Hits(r, Target(target), c[j]);
    }
  }

  /** Result of a data request: the node that delivered, the hops taken and the value found. */
  datatype Lookup = Hit(id: int, hops: nat, value: string) | Miss

  /** `forward_data_request` followed by the holder's `deliver_data`. */
  function ForwardDataRequest(r: Ring, origin: int, key: int): (l: Lookup)
    requires Linked(r) && origin in r
    ensures l.Hit? ==> l.id in r && l.id != origin && DeliverData(r[l.id].store, key) == Some(l.value)
  {
    match Scan(r, origin, Holder(key))
    case NotFound => Miss
    case Found(id, h) => Hit(id, h, DeliverData(r[id].store, key).value)
  }

  /**
   A data request is answered iff some node other than the origin holds the key;
   the answer comes from the first such node to the right of the origin and is
   that node's first entry for the key. The origin's own store is never examined.
   */
  lemma ForwardDataRequestFinds(r: Ring, c: seq<int>, key: int)
    requires IsCycle(r, c)
    ensures var l := ForwardDataRequest(r, c[0], key);
      && (l.Hit? <==> exists j | 1 <= j < |c| :: Hits(r, Holder(key), c[j]))
      && (l.Hit? ==> FirstHit(r, c, Holder(key), 1, l.hops) && l.id == c[l.hops])
  {
    ScanCycle(r, c, Holder(key));
  }

  /** Absolute, non-circular distance between an identifier and a key (`abs(id - key)`). */
  function Dist(id: int, key: int): nat {
    if id >= key then id - key else key - id
  }

  function ClosestFrom(r: Ring, origin: int, key: int, cur: int, best: int, fuel: nat): (b: int)
    requires Linked(r) && cur in r && best in r
    ensures b in r && Dist(b, key) <= Dist(best, key)
    decreases fuel
  {
    if fuel == 0 then best
    else
      var best' := if Dist(cur, key) < Dist(best, key) then cur else best;
      Follow(r, cur);
      var next := r[cur].right;
      if next == origin then best' else ClosestFrom(r, origin, key, next, best', fuel - 1)
  }

  /** `find_responsible_node`: one full turn from `s`, keeping the first node at minimal distance. */
  function FindResponsible(r: Ring, s: int, key: int): (p: int)
    requires Linked(r) && s in r
    ensures p in r && Dist(p, key) <= Dist(s, key)
  {
    ClosestFrom(r, s, key, s, s, |r|)
  }

  /** `c[m]` is at minimal distance to `key` among `c[..hi]`, and no earlier node is as close. */
  ghost predicate FirstClosest(c: seq<int>, key: int, m: int, hi: int) {
    && 0 <= m < hi <= |c|
    && (forall j | 0 <= j < hi :: Dist(c[m], key) <= Dist(c[j], key))
    && (forall j | 0 <= j < m :: Dist(c[j], key) > Dist(c[m], key))
  }

  /** Extending the prefix by one node keeps the first closest index up to date. */
  lemma ClosestStep(c: seq<int>, key: int, k: int, b: int)
    requires 0 <= k < |c| && 0 <= b < |c|
    requires (k == 0 && b == 0) || FirstClosest(c, key, b, k)
    ensures FirstClosest(c, key, if Dist(c[k], key) < Dist(c[b], key) then k else b, k + 1)
  {
  }

  /** The index `ClosestFrom` settles on when it scans `c[k..]` holding `c[b]`. */
  function ClosestIndex(c: seq<int>, key: int, k: int, b: int): (m: int)
    requires 0 <= k <= |c| && 0 <= b < |c|
    ensures 0 <= m < |c|
    decreases |c| - k
  {
    if k == |c| then b
    else ClosestIndex(c, key, k + 1, if Dist(c[k], key) < Dist(c[b], key) then k else b)
  }

  lemma {:induction false} ClosestIndexFirst(c: seq<int>, key: int, k: int, b: int)
    requires 0 <= k < |c| && 0 <= b < |c|
    requires (k == 0 && b == 0) || FirstClosest(c, key, b, k)
    ensures FirstClosest(c, key, ClosestIndex(c, key, k, b), |c|)
    decreases |c| - k
  {
    ClosestStep(c, key, k, b);
    if k + 1 < |c| {
      ClosestIndexFirst(c, key, k + 1, if Dist(c[k], key) < Dist(c[b], key) then k else b);
    }
  }

  lemma {:induction false} ClosestAlongCycle(r: Ring, c: seq<int>, key: int, k: int, b: int, fuel: nat)
    requires IsCycle(r, c) && 0 <= k < |c| && fuel >= |c| - k && 0 <= b < |c|
    ensures ClosestFrom(r, c[0], key, c[k], c[b], fuel) == c[ClosestIndex(c, key, k, b)]
    decreases |c| - k
  {
    Hop(r, c, k);
    Hop(r, c, b);
    var b' := if Dist(c[k], key) < Dist(c[b], key) then k else b;
    var m := ClosestFrom(r, c[0], key, c[k], c[b], fuel);
    if k + 1 < |c| {
      assert c[k + 1] != c[0];
      assert m == ClosestFrom(r, c[0], key, c[k + 1], c[b'], fuel - 1);
      ClosestAlongCycle(r, c, key, k + 1, b', fuel - 1);
    } else {
      assert m == c[b'];
    }
  }

  /**
   The responsible node is a live node at minimal distance from the key, and
   among equally close nodes it is the first one met walking right from the start.
   */
  lemma FindResponsibleClosest(r: Ring, c: seq<int>, key: int) returns (m: int)
    requires IsCycle(r, c)
    ensures FirstClosest(c, key, m, |c|) && FindResponsible(r, c[0], key) == c[m]
  {
    CycleSize(r, c);
    ClosestAlongCycle(r, c, key, 0, 0, |r|);
    ClosestIndexFirst(c, key, 0, 0);
    m := ClosestIndex(c, key, 0, 0);
  }
}
